=== FILE: README.md ===
# Reward and social rules of the clicker game, in Dafny

This project models the game rules in two browser modules. `features.js` is the original. `features.fix.js` is the later module. It replaces nothing in `features.js`: it provides alternative versions of some operations, exposed as `window.featuresFix`, while the buttons wired by `features.js` keep calling its own functions. The model covers both versions. The rules it covers are:

- **Abuse scoring.** `computeDynamicCooldown` turns a user record and the size of the local click burst into a click cooldown and an earn factor. Every payout is scaled by the earn factor. A shadow ban or a soft ban forces the factor to 0.
- **Click-burst window.** `noteClickEvent` keeps the timestamps of the last ten seconds of clicks. It asks for a suspicious-activity report on every click while twelve or more are in the window.
- **Daily reward.** The streak grows on consecutive days. It is capped at 7 for the reward, which is 1.00 to 4.00 before the earn factor. There are two versions:
  - the original edits the loaded record in place and saves it;
  - the later one runs a transaction on the stored record.
- **Loot boxes.** `refresh` enables a box button once the daily clicks reach 400 (normal) or 700 (big). `openBox` credits the scaled reward, deducts the clicks with a floor at 0, and appends one box entry.
- **Friend graph.** Send, accept, reject and remove are `arrayUnion` / `arrayRemove` writes on list fields of two user records. The later module also writes a notification.
- **User lookup.** `findUserDocByIdentifier` tries a fixed chain of lookups and takes the first one that finds a record. The original has three lookups; the later module has six.
- **Clans.** Create, join and leave, including the owner hand-off and deleting a clan whose last member leaves.
- **`escapeHtml`.** Replaces eight characters with HTML entities.

## How the model is built

- **The store.** The backing store is a `Database` object holding the `users`, `clans` and `notifications` collections as a `map`, a `map` and a `seq`.
  - A single update, a `set`, or a whole transaction is one atomic change of that object.
  - The signed-in user is a name `me`. Signing in is a read of `users[me]`, and a name without a record is not signed in.
- **Pure and imperative parts.** Pure computations are functions: the score, the claim arithmetic, the escape, and the per-document effect of a clan leave. Operations that change documents are methods with `modifies db`, written as the source writes them, one field or one document after another. Each method is proved to leave exactly the state given by a specification function. The lemmas are about those functions.
- **Values.**
  - Money and factors are `real`.
  - `Math.round(x * 100) / 100` is rounding to the nearest cent, with halves rounded up.
  - Calendar days are integers, and "yesterday" is `today - 1`.
  - A missing numeric field is 0, because the source reads such fields as `x || 0`.
- **Parameters.** These values come in as parameters:
  - the random box reward, with its range (normal 1..5, big 5..44);
  - the generated ids and creation times;
  - the current time;
  - the local click count;
  - the host's base cooldown (1500 ms by default).

## Model

| member | source | states |
|---|---|---|
| ArrayOps.ArrayUnion | features.js:292-301 | `arrayUnion(v)`: `v` is in the result, the result holds exactly the old elements and `v`, the old array is a prefix of it, and it is unchanged exactly when `v` was present |
| ArrayOps.ArrayRemove | features.js:316-324 | `arrayRemove(v)`: `v` is gone, every other element is kept, and the length drops by the number of occurrences of `v` |
| ArrayOps.RemoveAbsent | features.js:339-340 | removing an absent value changes nothing |
| ArrayOps.RemoveAppend | features.js:316-324 | removal distributes over concatenation |
| ArrayOps.UnionThenRemove | features.js:316-340 | `arrayRemove` undoes an `arrayUnion` that added a new value |
| ArrayOps.UnionKeepsNoDup | features.fix.js:120-123 | a union keeps a duplicate-free array duplicate-free |
| ArrayOps.RemoveKeepsNoDup | features.js:316-324 | a removal keeps a duplicate-free array duplicate-free |
| HtmlEscape.EscapeChar | features.js:110-111 | each of the eight specials becomes an entity that starts with `&` and ends with `;`; any other character is copied; no markup character is produced |
| HtmlEscape.Escape | features.js:110-112 | the output is at least as long as the input and contains none of `< > " ' / = \`` |
| HtmlEscape.EscapeHtml | features.js:108-113 | null or undefined give the empty string; otherwise the output has no markup character and unescapes to the input |
| HtmlEscape.DecodeEscapedChar | features.js:111 | the entity of one character decodes back to that character and consumes exactly its length |
| HtmlEscape.EscapeAppend | features.js:110-112 | `escape(a + b) == escape(a) + escape(b)` |
| HtmlEscape.EscapeRoundTrip | features.js:108-113 | unescaping an escaped string gives it back |
| HtmlEscape.EscapeInjective | features.js:108-113 | different strings escape differently |
| HtmlEscape.EscapePlainIsIdentity | features.js:110-112 | a string without specials escapes to itself |
| AbuseScore.RoundHalfUp | features.js:153 | `Math.round` gives the integer within one half of its argument |
| AbuseScore.Multiplier | features.js:140-149 | the cooldown multiplier is at least 1 |
| AbuseScore.SuspiciousEvents | features.js:143 | the count is `behavior.suspiciousEvents` when it is non-zero, and the legacy counter otherwise; it is 0 exactly when both are |
| AbuseScore.SuspicionFactor | features.js:144-147 | the suspicion part of the earn factor lies in [0.05, 1] |
| AbuseScore.ScaledCooldown | features.js:153 | `max(100, round(base * m))` is at least `max(100, base)` when `m >= 1` |
| AbuseScore.ComputeDynamicCooldown | features.js:138-154 | shadow ban gives `{base*8, 0}`, checked before the soft ban, which gives `{base*100, 0}`; the factor is 0 exactly for banned users; it lies in [0, 1], and without a ban in [0.03, 1] with a cooldown of at least `max(100, base)` |
| AbuseScore.EarnFactor | features.js:197 | the earn factor lies in [0, 1] |
| AbuseScore.RoundMonotone | features.js:153 | `Math.round` is monotone and leaves integers alone |
| AbuseScore.CleanUserScore | features.js:138-154 | no ban, no suspicious events and no burst give the full factor and a cooldown of `max(100, base)` |
| AbuseScore.EarnFactorIgnoresBase | features.js:139-153 | the base cooldown changes only the cooldown |
| AbuseScore.LegacyCounterFallback | features.js:143 | the legacy counter is read only when `behavior.suspiciousEvents` is 0 |
| AbuseScore.MoreSuspicionNeverHelps | features.js:143-149 | more suspicious events never raise the earn factor or shorten the cooldown |
| AbuseScore.BiggerBurstNeverHelps | features.js:148-149 | a bigger click burst never raises the earn factor or shortens the cooldown |
| AbuseScore.CooldownMonotone | features.js:153 | a larger multiplier never gives a shorter cooldown |
| ClickBurst.Evict | features.js:121 | eviction leaves a suffix whose first entry, if any, is within the window |
| ClickBurst.EvictDropsOnlyStale | features.js:121 | every evicted timestamp is older than the window |
| ClickBurst.NewClickKept | features.js:118-121 | the click just pushed is never evicted and stays last |
| ClickBurst.WindowAfterClick | features.js:118-121 | with timestamps in order, every remaining entry is within 10000 ms of `now` |
| ClickBurst.ClickTracker.constructor | features.js:103 | the window starts empty |
| ClickBurst.ClickTracker.NoteClickEvent | features.js:116-126 | the loop leaves exactly the eviction of the old window plus `now`; `now` is last; the length grows by at most 1; sorted input keeps every entry in the window; a report is requested exactly when 12 or more remain |
| Rewards.RoundCents | features.js:610 | the result is a whole number of cents, within half a cent of the value (rounding to the nearest cent, halves up) |
| Rewards.RoundCentsMonotone | features.js:610 | rounding to cents is monotone |
| Rewards.RoundCentsOfCents | features.js:608 | a whole number of cents is left alone |
| Rewards.ApplyClaim | features.fix.js:183 | a commit sets `lastDailyClaim` and `streak`, adds `actual` to `balance`, and preserves every other field |
| Rewards.NewStreak | features.js:606 | the streak is 1 unless the last claim was yesterday, when it is the stored streak plus one; at least 1 for a non-negative stored streak |
| Rewards.BaseReward | features.js:608 | the base reward is at least 1.00 and, for a capped streak, at most 4.00 |
| Rewards.ClaimDaily | features.js:602-611 | rejected exactly when already claimed today; otherwise the day is today, the streak is one more after yesterday's claim, else 1, and the amount is the base reward for `min(7, s)`, where `s` is the streak, or 1 when it is 0, scaled by the earn factor of the updated record and rounded to cents |
| Rewards.SafeEarnFactor | features.fix.js:178-181 | the factor is 1.0 exactly when the user is banned or the score's factor is 1.0 |
| Rewards.ClaimDailySafe | features.fix.js:168-183 | a missing record aborts with user-not-found; a claim today aborts; otherwise the day and the new streak as in the original, and the amount is the base reward for `min(7, streak)` scaled by the score's factor, or 1.0 when that factor is 0, and rounded to cents |
| Rewards.IntendedClaimDailySafe | features.fix.js:168-183 | the same aborts and streak, paying the base reward scaled by the score's own factor |
| Rewards.BaseRewardRange | features.js:608 | the base reward is 1.00 at streak 1, 2.50 at 4 and 4.00 at 7, never decreases, and is a whole number of cents |
| Rewards.PayoutBounds | features.js:608-610 | a payout lies between 0 and the base reward |
| Rewards.LowerFactorNeverPaysMore | features.js:610 | a lower earn factor never pays more for the same reward |
| Rewards.ClaimPayoutRange | features.js:606-611 | a claim pays between 0 and 4 and never lowers the balance |
| Rewards.ClaimOncePerDay | features.js:605 | after a committed claim, both versions reject a second claim on the same day |
| Rewards.ConsecutiveClaimsGrowStreak | features.js:606 | a claim on the next day grows the streak by one |
| Rewards.BannedClaimPaysNothing | features.js:606-611 | a banned user's claim advances the streak and pays exactly 0 |
| Rewards.CleanClaimPaysBaseReward | features.js:606-611 | a clean user is paid the full base reward: 1.00 on a first claim, 4.00 from the seventh consecutive day |
| Rewards.SafeMatchesInPlaceWhenNotBanned | features.fix.js:174-182 | without a ban, the two versions compute the same claim |
| Rewards.SafeClaimPaysBannedUser | features.fix.js:178-182 | as written, the transactional claim pays a banned user the full base reward, at least 1.00, where the original pays 0 |
| Rewards.IntendedSafeClaimBannedGainsNothing | features.fix.js:178-182 | the corrected transactional claim equals the original and pays a banned user 0 |
| Rewards.Refresh | features.js:170-190 | nobody signed in disables both buttons; the big button is enabled only with the normal one |
| Rewards.EnabledIffThreshold | features.js:188-189 | a button is enabled exactly when the daily clicks reach 400 or 700 |
| Rewards.OpenedBox | features.js:192-203 | the balance grows by the reward scaled by the user's earn factor and rounded to cents, which lies between 0 and the reward and is 0 for a banned user; the daily clicks drop by the box's cost, or to 0 when fewer remain; exactly one entry with that kind, id and amount is appended; nothing else changes |
| Rewards.CleanBoxPaysFullReward | features.js:196-199 | a user with no ban, no suspicious events and no burst is credited the whole drawn reward |
| Rewards.BoxPayoutBounds | features.js:196-199 | a box payout lies between 0 and the reward, and is 0 for a zero factor |
| Rewards.OpenEnabledBoxCostsThreshold | features.js:200-201 | opening an enabled box costs exactly its threshold in clicks |
| Ledger.ClaimDailyReward | features.js:602-612 | not signed in or already claimed today writes nothing; otherwise the caller's record becomes `ApplyClaim` of `ClaimDaily`, and nothing else changes |
| Ledger.ClaimDailyRewardSafe | features.fix.js:162-184 | an abort writes nothing; a commit merges the three fields of `ClaimDailySafe` into the caller's record, and nothing else changes |
| Ledger.OpenBox | features.js:192-204 | not signed in writes nothing; otherwise the caller's record becomes `OpenedBox`, and nothing else changes |
| Lookup.TrimStart | features.fix.js:73 | drops exactly the leading white space |
| Lookup.TrimEnd | features.fix.js:73 | drops exactly the trailing white space |
| Lookup.Trim | features.fix.js:73 | `trim()` is a contiguous piece that neither starts nor ends with white space, with only white space cut off |
| Lookup.BlankIffAllWhite | features.fix.js:73-74 | an identifier trims to nothing exactly when it is all white space |
| Lookup.TrimIdempotent | features.fix.js:73 | trimming twice is trimming once |
| Lookup.LowerChar | features.fix.js:82 | ASCII upper case maps to lower case, anything else is kept |
| Lookup.Lower | features.fix.js:82 | `toLowerCase` keeps the length and maps each character |
| Lookup.LowerIdempotent | features.fix.js:82-87 | lower-casing twice is lower-casing once |
| Lookup.RunStrategy | features.fix.js:76-104 | one lookup returns a matching record id, or nothing exactly when no record matches |
| Lookup.RunChain | features.fix.js:75-105 | the chain returns a record of its first successful lookup, or nothing exactly when every lookup fails |
| Lookup.FindUserDocByIdentifier | features.fix.js:71-106 | blank gives null; otherwise the id and data of a record found by the first successful lookup, in the order doc id, lower-cased doc id, `usernameLower`, `username`, `profileName`, `usernameLower` prefix; null exactly when all six fail |
| Lookup.FindUserDocByIdentifierLegacy | features.js:257-278 | the same for the three lookups doc id, `usernameLower`, `profileName` as typed |
| Lookup.ExactIdWins | features.fix.js:76-79 | a trimmed identifier that is a record id always returns that record |
| Lookup.LowerCaseIdSecond | features.fix.js:80-84 | otherwise a record whose id is the lower-cased identifier is returned |
| Lookup.FixChainFindsWhatLegacyFinds | features.fix.js:75-99 | for an identifier without surrounding white space, the newer chain finds a record whenever the older one does |
| Friends.SendFriendRequest | features.js:280-308 | not signed in exactly when the caller has no record; not found exactly when the identifier is blank or no lookup matches; these and self-requests write nothing; when a lookup matches, the outcome is a sent request or a self-request, and a sent request whenever the caller is not among the records the chain may return; a sent request records the found record as sent by the caller and the caller as received by it |
| Friends.SendFriendRequestFix | features.fix.js:109-135 | the same outcomes with the six-lookup chain, plus exactly one `friend_request` notification on success and none on failure |
| Friends.RequestSent | features.js:290-302 | the caller's record changes only in its sent list, which becomes the `arrayUnion` with the target; the target's record changes only in its received list, which becomes the `arrayUnion` with the caller; no record is added and every other record is untouched |
| Friends.RecordRequest | features.js:290-302 | the two sequential `arrayUnion` writes leave the table as `RequestSent`, and touch no clan and no notification |
| Friends.FriendAccepted | features.js:314-327 | the caller's record changes only by an `arrayRemove` of the requester from its received list and an `arrayUnion` into its friends list; the requester's record changes only by an `arrayRemove` of the caller from its sent list and an `arrayUnion` into its friends list; a missing requester gets a record holding only `friends: [me]` (the fallback `set` of features.js:326); every other record is untouched |
| Friends.FriendRemoved | features.js:337-340 | each of the two records changes only by an `arrayRemove` of the other from its friends list; a missing record stays missing, and every other record is untouched |
| Friends.RequestRejected | features.js:391-394 | the caller's record changes only by an `arrayRemove` of the requester from its received list, and the requester's only by an `arrayRemove` of the caller from its sent list; no record is added, every other record is untouched and no friends list changes |
| Friends.AcceptFriendRequest | features.js:310-331 | the table becomes `FriendAccepted`: the request is dropped on both sides and each becomes the other's friend |
| Friends.AcceptFriendRequestFix | features.fix.js:138-159 | the same plus one `friend_accept` notification |
| Friends.AcceptWrites | features.fix.js:142-151 | the two writes of an accept, including the fallback record for a missing requester |
| Friends.RemoveFriend | features.js:333-344 | the table becomes `FriendRemoved`, and a missing record is left alone |
| Friends.RejectFriendRequest | features.js:388-398 | the table becomes `RequestRejected` |
| Friends.RequestRecordedBothSides | features.fix.js:117-123 | a request is recorded on both sides; both lists stay duplicate-free; no other field or record changes |
| Friends.RequestIdempotent | features.fix.js:120-123 | sending the same request twice equals sending it once |
| Friends.AcceptedFriends | features.js:314-327 | after an accept, each friends list is the union with the other user, and a missing requester gets `[me]` |
| Friends.AcceptMakesFriends | features.fix.js:144-151 | after an accept the two are mutual friends, the request is gone on both sides, and no other record changes |
| Friends.AcceptPreservesInvariants | features.fix.js:144-151 | an accept keeps friendship mutual and friends lists duplicate-free |
| Friends.RemovedFriends | features.js:337-340 | after a removal, each friends list loses the other user |
| Friends.RemovePreservesInvariants | features.js:337-340 | a removal keeps friendship mutual and duplicate-free, and neither remains the other's friend |
| Friends.RemoveUndoesAccept | features.js:316-340 | removing undoes accepting someone who was not yet a friend |
| Friends.RejectDropsRequest | features.js:391-394 | a rejection drops the request on both sides and leaves friends lists alone |
| Clans.NewClan | features.js:485 | the new clan has the given name, the creator owns it and is its only member |
| Clans.ClanAfterLeave | features.js:530-534 | the leaver is filtered out of the members, and the name is kept |
| Clans.Joined | features.js:505 | the older join appends the caller once at the end, keeping name, owner and the old members in order |
| Clans.JoinedSafe | features.fix.js:213 | the newer join leaves a clan that already lists the caller as it is, and otherwise writes the same clan as the older join |
| Clans.ClansAfterLeave | features.js:530-534 | only the left clan changes or disappears; it disappears exactly when the leave deletes it, and otherwise it becomes the filtered clan of `ClanAfterLeave` (the other members kept in order, ownership handed to the first of them when the owner leaves) |
| Clans.CreateClan | features.js:481-492 | writes the new clan and sets the creator's `clanId` |
| Clans.JoinClanById | features.js:494-519 | a missing clan or an existing membership writes nothing; otherwise the caller is appended and `clanId` is set |
| Clans.JoinClanByIdSafe | features.fix.js:203-233 | the same checks and `arrayUnion`, plus one `clan_join` notification to an owner who is set and is not the caller |
| Clans.LeaveClan | features.js:521-547 | a missing clan writes nothing; otherwise the clan table becomes `ClansAfterLeave` and the caller's `clanId` is cleared |
| Clans.JoinKeepsWellFormed | features.js:503-505 | a join adds the caller exactly once, keeps the clan well formed, and both versions write the same list |
| Clans.LeaveKeepsWellFormed | features.js:530-534 | a leave keeps the clan well formed (the owner is a member, with no duplicates) |
| Clans.LeaveDeletesOnlyEmptiedClan | features.js:530-534 | a clan is deleted exactly when the owner leaves and no one else is listed; otherwise ownership passes to the first remaining member, and a non-owner leaving keeps the owner |
| Clans.JoinThenLeave | features.js:503-534 | a non-owner leaving right after joining leaves the clan as it was |
| Clans.TableStaysWellFormed | features.js:485-534 | create, join and leave keep every clan of the table well formed |
| Clans.MergeWrite | features.js:538-539 | a merge write stores every given field; when the written object lacks `clanId`, the result is the written object with the stored `clanId` kept |
| Clans.LeftUserAsWritten | features.js:535-543 | as written, the two merge writes of a leave change no field of the caller's record other than possibly `clanId` |
| Clans.LeaveKeepsClanIdAsWritten | features.js:535-543 | as written, the caller's stored record, `clanId` included, is unchanged by leaving |

## Left out

- Firestore I/O, listeners, chat, DM notifications and the `moderationLogs` write in `reportSuspicious` are not modelled. The report itself is modelled only as the `report` flag of `NoteClickEvent`.
- DOM and UI code is not modelled: modals, rendering, toasts, progress bars and `initFeatures` wiring. The user-facing messages of failures and notifications are not modelled either; a notification keeps only its recipient, sender and type.
- `_getLogged` and `_saveUser` host duck-typing is not modelled: the `saveUser.length` check, the auth-email query, and the synthetic user built from the auth session. Loading and saving are reads and writes of `users[me]`.
- Randomness: the box reward and the ids are parameters.
- HtmlEscape.EscapeHtml: `String(s)` turns a number, boolean or object argument into text before escaping; the model takes `Option<string>` (`None` for null or undefined) and does not model that conversion.
- Time zones are not modelled. Days are integers, and "yesterday" is `today - 1`, not the mixed local/UTC date keys of the source.
- IEEE floating point is not modelled: money is exact `real`, and `toFixed(2)` of the base reward is the identity.
- Concurrency is not modelled. Each update, `set` or transaction is one atomic step. So the lost updates that the in-place claim and `openBox` can suffer across tabs are not represented.
- Firestore's rule that a transaction reads before it writes is not modelled. `joinClanById` and `leaveClan` read the user record after writing the clan, and the model assumes both transactions complete.
- Transient failures of an update are not modelled, so the fallback `set` on that path is not modelled either. The one fallback modelled is the one taken when the record is missing, in accept.
- The case where there is no database (`HAS_DB` false) is not modelled.
- When several records match a query, which one `limit(1)` returns is left open: any match may come back.
- Lookup.LowerChar, Lookup.Lower: lower-case only ASCII letters, because `toLowerCase` for the rest of Unicode is out of scope.
- Lookup.Answers: the last lookup's `startAt(p).endAt(p + '\uf8ff')` range is modelled as "`usernameLower` starts with `p`". Values that continue with a character above U+F8FF are a difference that is not captured.
- Lookup.FindUserDocByIdentifier: a null or undefined identifier is modelled as the empty string, and ids that Firestore refuses (for example, ones containing `/`) are not modelled.
- Clans.LeaveClan: clears `clanId` as intended, not as written; see the findings.
- Rewards.ClaimDailySafe: `window.computeDynamicCooldown` is assumed to be present, as the original module installs it. The score is taken with the click window and the base cooldown of the caller.

## Findings

| source | as written | input that shows it | evidently intended | confidence | as-written member | corrected member |
|---|---|---|---|---|---|---|
| features.fix.js:180 | `earnFactor = r.earnFactor \|\| 1.0` treats the score's 0 as missing | a shadow- or soft-banned user claiming the daily reward is paid the full base reward (1.00 to 4.00) | the 1.0 default only when no score is available, so a banned user is paid 0 as in the original claim | high, not executed | Rewards.SafeClaimPaysBannedUser | Rewards.IntendedSafeClaimBannedGainsNothing |
| features.js:538-543 | `delete meData.clanId` followed by `set(..., { merge: true })`; a merge keeps fields absent from the written object | a member with `clanId == "c1"` leaves clan `c1`; the stored record still has `clanId == "c1"` | clear the stored `clanId`, for example with a field delete | medium, not executed | Clans.LeaveKeepsClanIdAsWritten | Clans.LeaveClan |

=== FILE: abuse_score.dfy ===
/** `computeDynamicCooldown`: scores a user record and the size of the local
    click burst into a click cooldown (milliseconds) and an earn factor that
    scales every payout. */
module AbuseScore {
  import opened Docs

  /** The base cooldown when the host defines no `COOLDOWN_MS`. */
  const DefaultCooldownMs := 1500
  /** A local burst of at least this many clicks doubles down on the penalty. */
  const BurstClicks := 8

  datatype Score = Score(cooldown: int, earnFactor: real)

  function IMax(a: int, b: int): int { if a >= b then a else b }
  function RMax(a: real, b: real): real { if a >= b then a else b }

  /** `Math.round`: the nearest integer, halves rounded up. */
  function RoundHalfUp(x: real): (n: int)
    ensures x - 0.5 < n as real <= x + 0.5
  {
    (x + 0.5).Floor
  }

  /** `behavior.suspiciousEvents || suspiciousEvents || 0`: the nested counter
      unless it is 0 (missing), then the legacy top-level counter. */
  function SuspiciousEvents(u: User): (s: int)
    ensures u.behaviorSuspicious != 0 ==> s == u.behaviorSuspicious
    ensures u.behaviorSuspicious == 0 ==> s == u.legacySuspicious
    ensures s == 0 <==> u.behaviorSuspicious == 0 && u.legacySuspicious == 0
  {
    if u.behaviorSuspicious != 0 then u.behaviorSuspicious else u.legacySuspicious
  }

  predicate Banned(u: User)
  {
    u.shadowBanned || u.softBanActive
  }

  /** The cooldown multiplier: 1, plus one half for every three suspicious
      events, plus one for a local burst. */
  function Multiplier(suspicious: int, localClicks: nat): (m: real)
    ensures 1.0 <= m
  {
    var m := if suspicious > 0 then 1.0 + (suspicious / 3) as real * 0.5 else 1.0;
    if localClicks >= BurstClicks then m + 1.0 else m
  }

  /** The suspicion part of the earn factor: 1 for no suspicious events,
      then 12% less per event, never below 5%. */
  function SuspicionFactor(suspicious: int): (f: real)
    ensures 0.05 <= f <= 1.0
  {
    if suspicious > 0 then RMax(0.05, 1.0 - suspicious as real * 0.12) else 1.0
  }

  /** The burst part of the earn factor. */
  function BurstFactor(localClicks: nat): real
  {
    if localClicks >= BurstClicks then 0.6 else 1.0
  }

  /** `Math.max(100, Math.round(base * multiplier))`. */
  function ScaledCooldown(base: nat, m: real): (c: int)
    requires 1.0 <= m
    ensures IMax(100, base) <= c
  {
    MulMonotone(base as real, 1.0, m);
    RoundMonotone(base as real, base as real * m);
    IMax(100, RoundHalfUp(base as real * m))
  }

  /** The score of `u` when the local click window holds `localClicks`
      timestamps and the base cooldown is `base`. The shadow-ban check comes
      before the soft-ban check, and either one replaces the computed values. */
  function ComputeDynamicCooldown(u: User, localClicks: nat, base: nat): (s: Score)
    ensures u.shadowBanned ==> s == Score(base * 8, 0.0)
    ensures !u.shadowBanned && u.softBanActive ==> s == Score(base * 100, 0.0)
    ensures s.earnFactor == 0.0 <==> Banned(u)
    ensures 0.0 <= s.earnFactor <= 1.0
    ensures !Banned(u) ==> 0.03 <= s.earnFactor && IMax(100, base) <= s.cooldown
  {
    var suspicious := SuspiciousEvents(u);
    var multiplier := Multiplier(suspicious, localClicks);
    var earnFactor := SuspicionFactor(suspicious) * BurstFactor(localClicks);
    if u.shadowBanned then Score(base * 8, 0.0)
    else if u.softBanActive then Score(base * 100, 0.0)
    else Score(ScaledCooldown(base, multiplier), RMax(0.0, earnFactor))
  }

  /** The earn factor alone, which does not depend on the base cooldown. */
  function EarnFactor(u: User, localClicks: nat): (f: real)
    ensures 0.0 <= f <= 1.0
  {
    ComputeDynamicCooldown(u, localClicks, DefaultCooldownMs).earnFactor
  }

  /** `Math.round` is monotone and leaves integers alone. */
  lemma RoundMonotone(x: real, y: real)
    requires x <= y
    ensures RoundHalfUp(x) <= RoundHalfUp(y)
    ensures x == x.Floor as real ==> RoundHalfUp(x) == x.Floor
  {
    var a, b := RoundHalfUp(x), RoundHalfUp(y);
    assert a as real < b as real + 1.0;
  }

  lemma MulMonotone(b: real, x: real, y: real)
    requires 0.0 <= b && x <= y
    ensures b * x <= b * y
  {
    assert b * y - b * x == b * (y - x);
  }

  /** A user with no ban, no suspicious events and no burst keeps the full
      earn factor and the base cooldown (at least 100 ms). */
  lemma CleanUserScore(u: User, localClicks: nat, base: nat)
    requires !Banned(u) && SuspiciousEvents(u) <= 0 && localClicks < BurstClicks
    ensures ComputeDynamicCooldown(u, localClicks, base) == Score(IMax(100, base), 1.0)
  {
    RoundMonotone(base as real * 1.0, base as real * 1.0);
  }

  /** The base cooldown changes only the cooldown. */
  lemma EarnFactorIgnoresBase(u: User, localClicks: nat, base: nat)
    ensures ComputeDynamicCooldown(u, localClicks, base).earnFactor == EarnFactor(u, localClicks)
  {
  }

  /** The legacy counter is read only when the nested one is 0. */
  lemma LegacyCounterFallback(u: User, legacy: int, localClicks: nat, base: nat)
    ensures u.behaviorSuspicious != 0 ==>
      ComputeDynamicCooldown(u.(legacySuspicious := legacy), localClicks, base)
      == ComputeDynamicCooldown(u, localClicks, base)
    ensures u.behaviorSuspicious == 0 ==>
      ComputeDynamicCooldown(u, localClicks, base)
      == ComputeDynamicCooldown(u.(behaviorSuspicious := u.legacySuspicious), localClicks, base)
  {
  }

  /** More suspicious events never raise the earn factor and never shorten
      the cooldown. */
  lemma MoreSuspicionNeverHelps(u: User, v: User, localClicks: nat, base: nat)
    requires u.shadowBanned == v.shadowBanned && u.softBanActive == v.softBanActive
    requires SuspiciousEvents(u) <= SuspiciousEvents(v)
    ensures ComputeDynamicCooldown(v, localClicks, base).earnFactor
            <= ComputeDynamicCooldown(u, localClicks, base).earnFactor
    ensures ComputeDynamicCooldown(u, localClicks, base).cooldown
            <= ComputeDynamicCooldown(v, localClicks, base).cooldown
  {
    if !Banned(u) {
      var su, sv := SuspiciousEvents(u), SuspiciousEvents(v);
      assert su > 0 ==> su / 3 <= sv / 3;
      CooldownMonotone(base, Multiplier(su, localClicks), Multiplier(sv, localClicks));
    }
  }

  /** A bigger local click burst never raises the earn factor and never
      shortens the cooldown. */
  lemma BiggerBurstNeverHelps(u: User, c1: nat, c2: nat, base: nat)
    requires c1 <= c2
    ensures ComputeDynamicCooldown(u, c2, base).earnFactor
            <= ComputeDynamicCooldown(u, c1, base).earnFactor
    ensures ComputeDynamicCooldown(u, c1, base).cooldown
            <= ComputeDynamicCooldown(u, c2, base).cooldown
  {
    if !Banned(u) {
      var s := SuspiciousEvents(u);
      CooldownMonotone(base, Multiplier(s, c1), Multiplier(s, c2));
    }
  }

  /** A larger multiplier never gives a shorter cooldown. */
  lemma CooldownMonotone(base: nat, m1: real, m2: real)
    requires 1.0 <= m1 <= m2
    ensures ScaledCooldown(base, m1) <= ScaledCooldown(base, m2)
  {
    MulMonotone(base as real, m1, m2);
    RoundMonotone(base as real * m1, base as real * m2);
  }
}

=== FILE: array_ops.dfy ===
/** Firestore's array field transforms, one element at a time:
    `FieldValue.arrayUnion(v)` adds `v` only when it is absent, and
    `FieldValue.arrayRemove(v)` deletes every occurrence of `v`. The same
    removal is what `members.filter(x => x !== me)` computes. */
module ArrayOps {

  /** No element occurs twice. */
  predicate NoDup<T(==)>(xs: seq<T>)
  {
    forall i, j :: 0 <= i < j < |xs| ==> xs[i] != xs[j]
  }

  function ArrayUnion<T(==,!new)>(xs: seq<T>, v: T): (r: seq<T>)
    ensures v in r
    ensures forall x :: x in r <==> x in xs || x == v
    ensures |xs| <= |r| <= |xs| + 1 && r[..|xs|] == xs
    ensures v in xs <==> r == xs
  {
    if v in xs then xs else xs + [v]
  }

  function ArrayRemove<T(==,!new)>(xs: seq<T>, v: T): (r: seq<T>)
    ensures v !in r
    ensures forall x :: x in r <==> x in xs && x != v
    ensures |r| == |xs| - multiset(xs)[v]
  {
    if xs == [] then []
    else
      assert xs == [xs[0]] + xs[1..];
      if xs[0] == v then ArrayRemove(xs[1..], v)
      else [xs[0]] + ArrayRemove(xs[1..], v)
  }

  /** Removing an absent value changes nothing. */
  lemma {:induction false} RemoveAbsent<T(!new)>(xs: seq<T>, v: T)
    requires v !in xs
    ensures ArrayRemove(xs, v) == xs
  {
    if xs != [] {
      RemoveAbsent(xs[1..], v);
    }
  }

  /** Removal distributes over concatenation. */
  lemma {:induction false} RemoveAppend<T(!new)>(xs: seq<T>, ys: seq<T>, v: T)
    ensures ArrayRemove(xs + ys, v) == ArrayRemove(xs, v) + ArrayRemove(ys, v)
  {
    if xs == [] {
      assert xs + ys == ys;
    } else {
      assert (xs + ys)[1..] == xs[1..] + ys;
      RemoveAppend(xs[1..], ys, v);
    }
  }

  /** `arrayRemove` undoes an `arrayUnion` that added a new value. */
  lemma UnionThenRemove<T(!new)>(xs: seq<T>, v: T)
    requires v !in xs
    ensures ArrayRemove(ArrayUnion(xs, v), v) == xs
  {
    RemoveAppend(xs, [v], v);
    RemoveAbsent(xs, v);
    assert ArrayRemove([v], v) == [];
  }

  /** A union keeps a duplicate-free array duplicate-free. */
  lemma UnionKeepsNoDup<T(!new)>(xs: seq<T>, v: T)
    requires NoDup(xs)
    ensures NoDup(ArrayUnion(xs, v))
  {
  }

  /** A removal keeps a duplicate-free array duplicate-free. */
  lemma {:induction false} RemoveKeepsNoDup<T(!new)>(xs: seq<T>, v: T)
    requires NoDup(xs)
    ensures NoDup(ArrayRemove(xs, v))
  {
    if xs != [] {
      assert NoDup(xs[1..]) by {
        forall i, j | 0 <= i < j < |xs[1..]| ensures xs[1..][i] != xs[1..][j] {
          assert xs[1..][i] == xs[i + 1] && xs[1..][j] == xs[j + 1];
        }
      }
      RemoveKeepsNoDup(xs[1..], v);
      if xs[0] != v {
        var rest := ArrayRemove(xs[1..], v);
        assert xs[0] !in xs[1..] by {
          forall k | 0 <= k < |xs[1..]| ensures xs[1..][k] != xs[0] {
            assert xs[1..][k] == xs[k + 1];
          }
        }
        assert xs[0] !in rest;
        var r := [xs[0]] + rest;
        forall i, j | 0 <= i < j < |r| ensures r[i] != r[j] {
          if i == 0 {
            assert r[j] == rest[j - 1];
            assert rest[j - 1] in rest;
          } else {
            assert r[i] == rest[i - 1] && r[j] == rest[j - 1];
          }
        }
      }
    }
  }
}

=== FILE: clans.dfy ===
/** Clan membership: creating a clan, joining one (the older transaction and
    the newer one that also notifies the owner) and leaving one, with the
    owner hand-off and the deletion of an emptied clan. */
module Clans {
  import opened Docs
  import opened ArrayOps

  /** The owner is a member and no one is listed twice. */
  predicate WellFormed(c: Clan)
  {
    c.owner in c.members && NoDup(c.members)
  }

  /** The clan `createClan` writes: the creator owns it and is its only member. */
  function NewClan(name: string, me: string): (c: Clan)
    ensures c.name == name && WellFormed(c) && c.owner == me && me in c.members && |c.members| == 1
  {
    Clan(name, me, [me])
  }

  /** The older join: `members.push(me)` after the membership check. */
  function Joined(c: Clan, me: string): (v: Clan)
    ensures v.name == c.name && v.owner == c.owner && me in v.members
    ensures |v.members| == |c.members| + 1 && v.members[..|c.members|] == c.members
  {
    c.(members := c.members + [me])
  }

  /** The newer join: `arrayUnion(me)` on `members`. */
  function JoinedSafe(c: Clan, me: string): (v: Clan)
    ensures v.name == c.name && v.owner == c.owner && me in v.members
    ensures me in c.members ==> v == c
    ensures me !in c.members ==> v == Joined(c, me)
  {
    c.(members := ArrayUnion(c.members, me))
  }

  /** `leaveClan` on the clan document: `me` is filtered out of the
      members; an owner leaving an emptied clan deletes it (`None`), an
      owner leaving others behind hands the clan to the first of them. */
  function ClanAfterLeave(c: Clan, me: string): (r: Option<Clan>)
    ensures r.Some? ==> me !in r.value.members && r.value.name == c.name
    ensures r.Some? ==> r.value.members == ArrayRemove(c.members, me)
  {
    var members := ArrayRemove(c.members, me);
    if c.owner == me then
      if members == [] then None else Some(Clan(c.name, members[0], members))
    else Some(c.(members := members))
  }

  /** The `clans` table after `me` leaves clan `id`. */
  function ClansAfterLeave(clans: map<string, Clan>, id: string, me: string): (r: map<string, Clan>)
    requires id in clans
    ensures r.Keys <= clans.Keys
    ensures forall k :: k in clans && k != id ==> k in r && r[k] == clans[k]
    ensures id !in r <==> ClanAfterLeave(clans[id], me).None?
    ensures id in r ==> r[id] == ClanAfterLeave(clans[id], me).value
    ensures id in r ==> me !in r[id].members
  {
    match ClanAfterLeave(clans[id], me)
    case None => clans - {id}
    case Some(c) => clans[id := c]
  }

  // ---------- The operations ----------

  /** `createClan(name)` with the generated id `id`: writes the new clan
      (replacing any clan with that id) and saves the creator's `clanId`. */
  method CreateClan(db: Database, me: string, id: string, name: string) returns (r: Outcome)
    modifies db
    ensures db.notifications == old(db.notifications)
    ensures me !in old(db.users) ==> r == Failed(NotLoggedIn) && db.users == old(db.users) && db.clans == old(db.clans)
    ensures me in old(db.users) ==>
      r == Done && db.clans == old(db.clans)[id := NewClan(name, me)]
      && db.users == old(db.users)[me := old(db.users)[me].(clanId := Some(id))]
  {
    if me !in db.users {
      return Failed(NotLoggedIn);
    }
    db.clans := db.clans[id := NewClan(name, me)];
    var mine := db.users[me];
    db.users := db.users[me := mine.(clanId := Some(id))];
    r := Done;
  }

  /** `joinClanById`: fails without a write when the clan is missing or
      already lists the caller; otherwise appends the caller to `members`
      and sets the caller's `clanId`. */
  method JoinClanById(db: Database, me: string, id: string) returns (r: Outcome)
    modifies db
    ensures db.notifications == old(db.notifications)
    ensures me !in old(db.users) ==> r == Failed(NotLoggedIn)
    ensures me in old(db.users) && id !in old(db.clans) ==> r == Failed(ClanNotFound)
    ensures me in old(db.users) && id in old(db.clans) && me in old(db.clans)[id].members ==> r == Failed(AlreadyMember)
    ensures r.Failed? ==> db.users == old(db.users) && db.clans == old(db.clans)
    ensures me in old(db.users) && id in old(db.clans) && me !in old(db.clans)[id].members ==>
      r == Done && db.clans == old(db.clans)[id := Joined(old(db.clans)[id], me)]
      && db.users == old(db.users)[me := old(db.users)[me].(clanId := Some(id))]
  {
    if me !in db.users {
      return Failed(NotLoggedIn);
    }
    if id !in db.clans {
      return Failed(ClanNotFound);
    }
    var clan := db.clans[id];
    if me in clan.members {
      return Failed(AlreadyMember);
    }
    db.clans := db.clans[id := clan.(members := clan.members + [me])];
    var mine := db.users[me];
    db.users := db.users[me := mine.(clanId := Some(id))];
    r := Done;
  }

  /** `joinClanByIdSafe`: the same checks, an `arrayUnion` on `members`,
      the caller's `clanId`, then one `clan_join` notification to the owner
      when the clan has an owner other than the caller. */
  method JoinClanByIdSafe(db: Database, me: string, id: string) returns (r: Outcome)
    modifies db
    ensures me !in old(db.users) ==> r == Failed(NotLoggedIn)
    ensures me in old(db.users) && id !in old(db.clans) ==> r == Failed(ClanNotFound)
    ensures me in old(db.users) && id in old(db.clans) && me in old(db.clans)[id].members ==> r == Failed(AlreadyMember)
    ensures r.Failed? ==>
      db.users == old(db.users) && db.clans == old(db.clans) && db.notifications == old(db.notifications)
    ensures me in old(db.users) && id in old(db.clans) && me !in old(db.clans)[id].members ==>
      var c := old(db.clans)[id];
      r == Done && db.clans == old(db.clans)[id := JoinedSafe(c, me)]
      && db.users == old(db.users)[me := old(db.users)[me].(clanId := Some(id))]
      && db.notifications == old(db.notifications)
           + (if c.owner != "" && c.owner != me then [Notification(c.owner, me, ClanJoin)] else [])
  {
    if me !in db.users {
      return Failed(NotLoggedIn);
    }
    if id !in db.clans {
      return Failed(ClanNotFound);
    }
    var clan := db.clans[id];
    if me in clan.members {
      return Failed(AlreadyMember);
    }
    db.clans := db.clans[id := clan.(members := ArrayUnion(clan.members, me))];
    var mine := db.users[me];
    db.users := db.users[me := mine.(clanId := Some(id))];
    var owner := db.clans[id].owner;
    if owner != "" && owner != me {
      db.notifications := db.notifications + [Notification(owner, me, ClanJoin)];
    }
    r := Done;
  }

  /** `leaveClan`: fails without a write when the clan is missing;
      otherwise removes every occurrence of the caller from `members`,
      hands over or deletes the clan when the caller owned it, and clears
      the caller's `clanId`. It does not check that the caller was a member. */
  method LeaveClan(db: Database, me: string, id: string) returns (r: Outcome)
    modifies db
    ensures db.notifications == old(db.notifications)
    ensures me !in old(db.users) ==> r == Failed(NotLoggedIn)
    ensures me in old(db.users) && id !in old(db.clans) ==> r == Failed(ClanNotFound)
    ensures r.Failed? ==> db.users == old(db.users) && db.clans == old(db.clans)
    ensures me in old(db.users) && id in old(db.clans) ==>
      r == Done && db.clans == ClansAfterLeave(old(db.clans), id, me)
      && db.users == old(db.users)[me := old(db.users)[me].(clanId := None)]
  {
    if me !in db.users {
      return Failed(NotLoggedIn);
    }
    if id !in db.clans {
      return Failed(ClanNotFound);
    }
    var clan := db.clans[id];
    var members := ArrayRemove(clan.members, me);
    if clan.owner == me {
      if members == [] {
        db.clans := db.clans - {id};
      } else {
        db.clans := db.clans[id := Clan(clan.name, members[0], members)];
      }
    } else {
      db.clans := db.clans[id := clan.(members := members)];
    }
    var mine := db.users[me];
    db.users := db.users[me := mine.(clanId := None)];
    r := Done;
  }

  // ---------- Properties ----------

  /** Both joins add the caller once and keep a clan well formed; after the
      membership check they write the same list. */
  lemma JoinKeepsWellFormed(c: Clan, me: string)
    requires WellFormed(c) && me !in c.members
    ensures WellFormed(Joined(c, me)) && me in Joined(c, me).members
    ensures multiset(Joined(c, me).members) == multiset(c.members) + multiset{me}
    ensures JoinedSafe(c, me) == Joined(c, me)
  {
  }

  /** Leaving keeps a clan well formed, and the leaver is no longer a member. */
  lemma LeaveKeepsWellFormed(c: Clan, me: string)
    requires WellFormed(c)
    ensures ClanAfterLeave(c, me).Some? ==> WellFormed(ClanAfterLeave(c, me).value)
  {
    RemoveKeepsNoDup(c.members, me);
  }

  /** The clan is deleted exactly when its owner leaves and no one else is
      listed; an owner who leaves others behind hands the clan to the first
      of them, and anyone else leaving keeps the owner. */
  lemma LeaveDeletesOnlyEmptiedClan(c: Clan, me: string)
    ensures ClanAfterLeave(c, me).None? <==> c.owner == me && forall m :: m in c.members ==> m == me
    ensures c.owner == me && ClanAfterLeave(c, me).Some? ==>
      var n := ClanAfterLeave(c, me).value;
      n.owner != me && n.owner in c.members && n.owner == n.members[0]
    ensures c.owner != me ==> ClanAfterLeave(c, me).Some? && ClanAfterLeave(c, me).value.owner == c.owner
  {
    var rest := ArrayRemove(c.members, me);
    if rest != [] {
      assert rest[0] in rest;
    }
  }

  /** A member who is not the owner and leaves right after joining leaves
      the clan as it was. */
  lemma JoinThenLeave(c: Clan, me: string)
    requires me !in c.members && c.owner != me
    ensures ClanAfterLeave(Joined(c, me), me) == Some(c)
  {
    UnionThenRemove(c.members, me);
  }

  /** Every clan of the table is well formed. */
  ghost predicate AllWellFormed(clans: map<string, Clan>)
  {
    forall k :: k in clans ==> WellFormed(clans[k])
  }

  /** Every operation keeps every clan in the table well formed. */
  lemma TableStaysWellFormed(clans: map<string, Clan>, id: string, me: string, name: string)
    requires AllWellFormed(clans)
    ensures AllWellFormed(clans[id := NewClan(name, me)])
    ensures id in clans && me !in clans[id].members ==> AllWellFormed(clans[id := Joined(clans[id], me)])
    ensures id in clans ==> AllWellFormed(ClansAfterLeave(clans, id, me))
  {
    if id in clans {
      LeaveKeepsWellFormed(clans[id], me);
      if me !in clans[id].members {
        JoinKeepsWellFormed(clans[id], me);
      }
    }
  }

  // ---------- The clan id after leaving, as written ----------

  /** A `set(written, { merge: true })` of a user record: every field of
      `written` is stored, except that a `clanId` absent from `written`
      leaves the stored one in place (a merge never deletes a field). */
  function MergeWrite(stored: User, written: User): (v: User)
    ensures written.clanId.Some? ==> v == written
    ensures written.clanId.None? ==> v.clanId == stored.clanId
    ensures written.clanId.None? ==> v == written.(clanId := stored.clanId)
  {
    written.(clanId := if written.clanId.Some? then written.clanId else stored.clanId)
  }

  /** The caller's record after `leaveClan` as written: the transaction
      merges the record with `clanId` deleted, then the local copy, also
      without `clanId`, is merged again. */
  function LeftUserAsWritten(stored: User): (v: User)
    ensures v.(clanId := None) == stored.(clanId := None)
  {
    var inTransaction := MergeWrite(stored, stored.(clanId := None));
    MergeWrite(inTransaction, inTransaction.(clanId := None))
  }

  /** As written, leaving does not clear the stored `clanId`: the record
      still names the clan it left, unlike the `clanId := None` that
      `LeaveClan` writes. */
  lemma LeaveKeepsClanIdAsWritten(stored: User, id: string)
    requires stored.clanId == Some(id)
    ensures LeftUserAsWritten(stored) == stored
    ensures LeftUserAsWritten(stored).clanId == Some(id)
  {
  }
}

=== FILE: click_burst.dfy ===
/** The local click-burst tracker: a sliding window of click timestamps
    (milliseconds) kept per page session. `noteClickEvent` appends the
    current time, drops timestamps older than the window from the front and
    asks for a suspicious-activity report when the window is full enough. */
module ClickBurst {

  const BehaviorWindowMs := 10000
  const FastClickThreshold := 12

  predicate Sorted(s: seq<int>)
  {
    forall i, j :: 0 <= i < j < |s| ==> s[i] <= s[j]
  }

  /** What the eviction loop leaves of `s`: the front is dropped while it is
      more than the window older than `now`. */
  function Evict(s: seq<int>, now: int): (r: seq<int>)
    ensures |r| <= |s| && r == s[|s| - |r|..]
    ensures r != [] ==> now - r[0] <= BehaviorWindowMs
  {
    if s != [] && now - s[0] > BehaviorWindowMs then Evict(s[1..], now) else s
  }

  /** Every timestamp eviction drops is older than the window. */
  lemma {:induction false} EvictDropsOnlyStale(s: seq<int>, now: int)
    ensures forall i :: 0 <= i < |s| - |Evict(s, now)| ==> now - s[i] > BehaviorWindowMs
  {
    if s != [] && now - s[0] > BehaviorWindowMs {
      EvictDropsOnlyStale(s[1..], now);
      forall i | 0 <= i < |s| - |Evict(s, now)|
        ensures now - s[i] > BehaviorWindowMs
      {
        if i > 0 {
          assert s[i] == s[1..][i - 1];
        }
      }
    }
  }

  /** The click just recorded is never evicted: it stays last. */
  lemma NewClickKept(s: seq<int>, now: int)
    ensures var r := Evict(s + [now], now); r != [] && r[|r| - 1] == now
  {
    var full := s + [now];
    var r := Evict(full, now);
    EvictDropsOnlyStale(full, now);
    assert full[|full| - 1] == now;
    assert |r| > 0;
    assert r[|r| - 1] == full[|full| - 1];
  }

  /** When the stored timestamps are in order, everything left after a click
      at `now` is within the window of `now`. */
  lemma WindowAfterClick(s: seq<int>, now: int)
    requires Sorted(s)
    ensures forall t :: t in Evict(s + [now], now) ==> now - t <= BehaviorWindowMs
  {
    var full := s + [now];
    var r := Evict(full, now);
    var k := |full| - |r|;
    forall t | t in r
      ensures now - t <= BehaviorWindowMs
    {
      var j :| 0 <= j < |r| && r[j] == t;
      assert r[j] == full[k + j] && r[0] == full[k];
      if k + j < |s| {
        assert full[k] == s[k] && full[k + j] == s[k + j];
      }
    }
  }

  /** The per-session tracker (`state.behaviorLocal.clicks`). */
  class ClickTracker {
    var clicks: seq<int>

    constructor ()
      ensures clicks == []
    {
      clicks := [];
    }

    /** The size of the window, which `computeDynamicCooldown` reads. */
    function LocalClicks(): nat
      reads this
    {
      |clicks|
    }

    /** `noteClickEvent` at time `now`; `report` says whether
        `reportSuspicious('fast_clicks', ...)` is called. */
    method NoteClickEvent(now: int) returns (report: bool)
      modifies this
      ensures clicks == Evict(old(clicks) + [now], now)
      ensures clicks != [] && clicks[|clicks| - 1] == now
      ensures |clicks| <= |old(clicks)| + 1
      ensures Sorted(old(clicks)) ==> forall t :: t in clicks ==> now - t <= BehaviorWindowMs
      ensures report <==> LocalClicks() >= FastClickThreshold
    {
      clicks := clicks + [now];
      while clicks != [] && now - clicks[0] > BehaviorWindowMs
        invariant Evict(clicks, now) == Evict(old(clicks) + [now], now)
        decreases |clicks|
      {
        clicks := clicks[1..];
      }
      NewClickKept(old(clicks), now);
      if Sorted(old(clicks)) {
        WindowAfterClick(old(clicks), now);
      }
      report := |clicks| >= FastClickThreshold;
    }
  }
}

=== FILE: docs.dfy ===
/** The documents the game keeps in its backing store, as values, and the
    in-memory store that every operation of this model reads and updates.
    A Firestore `update`, `set` or `runTransaction` is one atomic change of a
    `Database` object. */
module Docs {

  datatype Option<+T> = None | Some(value: T)

  /** The two loot-box kinds, `'normal'` and `'big'`. */
  datatype BoxKind = Normal | Big

  /** One entry of a user's `boxes` list: its id, kind, the amount actually
      credited, and the creation time (an opaque number). */
  datatype Box = Box(id: string, kind: BoxKind, reward: real, createdAt: int)

  /** A document of the `users` collection. Numeric fields that the source
      reads as `x || 0` hold 0 when the field is missing; optional string
      fields are `None` when missing.
      - `behaviorSuspicious` is `behavior.suspiciousEvents`,
        `legacySuspicious` the older top-level `suspiciousEvents`;
      - `softBanActive` is `softBan.active`;
      - `lastDailyClaim` is a calendar day number. */
  datatype User = User(
    username: Option<string>,
    usernameLower: Option<string>,
    profileName: Option<string>,
    balance: real,
    streak: int,
    lastDailyClaim: Option<int>,
    dailyClicks: int,
    boxes: seq<Box>,
    behaviorSuspicious: int,
    legacySuspicious: int,
    shadowBanned: bool,
    softBanActive: bool,
    friends: seq<string>,
    friendRequestsSent: seq<string>,
    friendRequestsReceived: seq<string>,
    clanId: Option<string>)

  /** The document that a `set(..., { merge: true })` on a missing id starts
      from: every field missing. */
  function NewUserDoc(): User
  {
    User(None, None, None, 0.0, 0, None, 0, [], 0, 0, false, false, [], [], [], None)
  }

  /** A document of the `clans` collection (the fields the membership rules use). */
  datatype Clan = Clan(name: string, owner: string, members: seq<string>)

  datatype NotificationKind = FriendRequest | FriendAccept | ClanJoin

  /** A document of the `notifications` collection: recipient, sender, type. */
  datatype Notification = Notification(to: string, from: string, kind: NotificationKind)

  /** The reasons an operation stops without its main write. */
  datatype Failure =
    | NotLoggedIn
    | UserNotFound
    | SelfRequest
    | AlreadyClaimedToday
    | ClanNotFound
    | AlreadyMember

  datatype Outcome = Done | Failed(failure: Failure)

  /** The `users`, `clans` and `notifications` collections. */
  class Database {
    var users: map<string, User>
    var clans: map<string, Clan>
    var notifications: seq<Notification>

    constructor ()
      ensures users == map[] && clans == map[] && notifications == []
    {
      users := map[];
      clans := map[];
      notifications := [];
    }
  }
}

=== FILE: friends.dfy ===
/** The friend graph: sending, accepting, rejecting a request and removing a
    friend. Every write is an `arrayUnion` or `arrayRemove` on one list
    field of one user record; an operation is two such writes, the caller's
    record first. The newer versions of send and accept also add one entry
    to the `notifications` collection. */
module Friends {
  import opened Docs
  import opened ArrayOps
  import opened Lookup

  // ---------- The new table after each operation ----------

  /** After a request from `me` to `target`: `target` is in the caller's
      sent list and the caller in the target's received list. */
  function RequestSent(users: map<string, User>, me: string, target: string): (r: map<string, User>)
    requires me in users && target in users
    ensures r.Keys == users.Keys
    ensures target in r[me].friendRequestsSent && me in r[target].friendRequestsReceived
    ensures me != target ==>
      r[me] == users[me].(friendRequestsSent := ArrayUnion(users[me].friendRequestsSent, target))
      && r[target] == users[target].(friendRequestsReceived := ArrayUnion(users[target].friendRequestsReceived, me))
    ensures me == target ==>
      r[me] == users[me].(friendRequestsSent := ArrayUnion(users[me].friendRequestsSent, me),
                          friendRequestsReceived := ArrayUnion(users[me].friendRequestsReceived, me))
    ensures forall x :: x in users && x != me && x != target ==> r[x] == users[x]
  {
    var u1 := users[me := users[me].(friendRequestsSent := ArrayUnion(users[me].friendRequestsSent, target))];
    u1[target := u1[target].(friendRequestsReceived := ArrayUnion(u1[target].friendRequestsReceived, me))]
  }

  /** After `me` accepts `from`: the request is dropped on both sides and
      each is added to the other's friends. When `from` has no record, the
      fallback `set(..., { merge: true })` creates one holding only
      `friends: [me]` and an empty sent list. */
  function FriendAccepted(users: map<string, User>, me: string, from: string): (r: map<string, User>)
    requires me in users
    ensures r.Keys == users.Keys + {from}
    ensures from in r[me].friends && me in r[from].friends
    ensures me != from ==>
      r[me] == users[me].(friendRequestsReceived := ArrayRemove(users[me].friendRequestsReceived, from),
                          friends := ArrayUnion(users[me].friends, from))
    ensures me != from && from in users ==>
      r[from] == users[from].(friendRequestsSent := ArrayRemove(users[from].friendRequestsSent, me),
                              friends := ArrayUnion(users[from].friends, me))
    ensures from !in users ==> r[from] == NewUserDoc().(friends := [me])
    ensures me == from ==>
      r[me] == users[me].(friendRequestsReceived := ArrayRemove(users[me].friendRequestsReceived, me),
                          friendRequestsSent := ArrayRemove(users[me].friendRequestsSent, me),
                          friends := ArrayUnion(users[me].friends, me))
    ensures forall x :: x in users && x != me && x != from ==> r[x] == users[x]
  {
    var mine := users[me];
    var u1 := users[me := mine.(friendRequestsReceived := ArrayRemove(mine.friendRequestsReceived, from),
                                friends := ArrayUnion(mine.friends, from))];
    if from in u1 then
      u1[from := u1[from].(friendRequestsSent := ArrayRemove(u1[from].friendRequestsSent, me),
                           friends := ArrayUnion(u1[from].friends, me))]
    else
      u1[from := NewUserDoc().(friends := [me])]
  }

  /** After `me` removes `target`: each leaves the other's friends; a
      missing target record is left missing (the failed update is ignored). */
  function FriendRemoved(users: map<string, User>, me: string, target: string): (r: map<string, User>)
    requires me in users
    ensures r.Keys == users.Keys
    ensures target !in r[me].friends && (target in users ==> me !in r[target].friends)
    ensures me != target ==> r[me] == users[me].(friends := ArrayRemove(users[me].friends, target))
    ensures me != target && target in users ==>
      r[target] == users[target].(friends := ArrayRemove(users[target].friends, me))
    ensures me == target ==> r[me] == users[me].(friends := ArrayRemove(users[me].friends, me))
    ensures forall x :: x in users && x != me && x != target ==> r[x] == users[x]
  {
    var u1 := users[me := users[me].(friends := ArrayRemove(users[me].friends, target))];
    var r := if target in u1 then u1[target := u1[target].(friends := ArrayRemove(u1[target].friends, me))]
             else u1;
    if me == target then
      RemoveAbsent(ArrayRemove(users[me].friends, me), me);
      r
    else r
  }

  /** After `me` rejects `from`: the request is dropped on both sides. */
  function RequestRejected(users: map<string, User>, me: string, from: string): (r: map<string, User>)
    requires me in users
    ensures r.Keys == users.Keys
    ensures from !in r[me].friendRequestsReceived && (from in users ==> me !in r[from].friendRequestsSent)
    ensures me != from ==>
      r[me] == users[me].(friendRequestsReceived := ArrayRemove(users[me].friendRequestsReceived, from))
    ensures me != from && from in users ==>
      r[from] == users[from].(friendRequestsSent := ArrayRemove(users[from].friendRequestsSent, me))
    ensures me == from ==>
      r[me] == users[me].(friendRequestsReceived := ArrayRemove(users[me].friendRequestsReceived, me),
                          friendRequestsSent := ArrayRemove(users[me].friendRequestsSent, me))
    ensures forall x :: x in users && x != me && x != from ==> r[x] == users[x]
    ensures forall x :: x in users ==> r[x].friends == users[x].friends
  {
    var u1 := users[me := users[me].(friendRequestsReceived := ArrayRemove(users[me].friendRequestsReceived, from))];
    if from in u1 then u1[from := u1[from].(friendRequestsSent := ArrayRemove(u1[from].friendRequestsSent, me))]
    else u1
  }

  // ---------- The operations ----------

  /** The two writes of a request: an `arrayUnion` of the target into the
      caller's sent list, then of the caller into the target's received
      list. */
  method RecordRequest(db: Database, me: string, target: string)
    requires me in db.users && target in db.users
    modifies db
    ensures db.users == RequestSent(old(db.users), me, target)
    ensures db.clans == old(db.clans) && db.notifications == old(db.notifications)
  {
    var mine := db.users[me];
    db.users := db.users[me := mine.(friendRequestsSent := ArrayUnion(mine.friendRequestsSent, target))];
    var theirs := db.users[target];
    db.users := db.users[target := theirs.(friendRequestsReceived := ArrayUnion(theirs.friendRequestsReceived, me))];
  }

  /** `sendFriendRequest` of the older module: finds the target with the
      three-lookup chain and records the request on both records. */
  method SendFriendRequest(db: Database, me: string, identifier: string) returns (r: Outcome)
    modifies db
    ensures db.clans == old(db.clans) && db.notifications == old(db.notifications)
    ensures r == Failed(NotLoggedIn) <==> me !in old(db.users)
    ensures r == Failed(UserNotFound) <==>
      me in old(db.users) && (Trim(identifier) == [] || NoneSucceeds(old(db.users), LegacyChain(Trim(identifier), identifier)))
    ensures r == Failed(SelfRequest) ==> Resolves(old(db.users), LegacyChain(Trim(identifier), identifier), me)
    ensures me in old(db.users) && Trim(identifier) != [] && !NoneSucceeds(old(db.users), LegacyChain(Trim(identifier), identifier)) ==>
      r == Done || r == Failed(SelfRequest)
    ensures (me in old(db.users) && Trim(identifier) != [] && !NoneSucceeds(old(db.users), LegacyChain(Trim(identifier), identifier))
             && !Resolves(old(db.users), LegacyChain(Trim(identifier), identifier), me)) ==> r == Done
    ensures r.Failed? ==> db.users == old(db.users)
    ensures r == Done ==> exists t :: (t != me && Resolves(old(db.users), LegacyChain(Trim(identifier), identifier), t)
                                       && t in old(db.users) && me in old(db.users)
                                       && db.users == RequestSent(old(db.users), me, t))
  {
    if me !in db.users {
      return Failed(NotLoggedIn);
    }
    var found := FindUserDocByIdentifierLegacy(db, identifier);
    if found.None? {
      return Failed(UserNotFound);
    }
    var target := found.value.id;
    ghost var chain := LegacyChain(Trim(identifier), identifier);
    assert Resolves(db.users, chain, target);
    if target == me {
      return Failed(SelfRequest);
    }
    assert target != me && target in db.users;
    RecordRequest(db, me, target);
    r := Done;
  }

  /** `sendFriendRequest` of the newer module: the six-lookup chain, the
      same two writes, then one `friend_request` notification to the
      target. */
  method SendFriendRequestFix(db: Database, me: string, identifier: string) returns (r: Outcome)
    modifies db
    ensures db.clans == old(db.clans)
    ensures r == Failed(NotLoggedIn) <==> me !in old(db.users)
    ensures r == Failed(UserNotFound) <==>
      me in old(db.users) && (Trim(identifier) == [] || NoneSucceeds(old(db.users), FixChain(Trim(identifier))))
    ensures r == Failed(SelfRequest) ==> Resolves(old(db.users), FixChain(Trim(identifier)), me)
    ensures me in old(db.users) && Trim(identifier) != [] && !NoneSucceeds(old(db.users), FixChain(Trim(identifier))) ==>
      r == Done || r == Failed(SelfRequest)
    ensures (me in old(db.users) && Trim(identifier) != [] && !NoneSucceeds(old(db.users), FixChain(Trim(identifier)))
             && !Resolves(old(db.users), FixChain(Trim(identifier)), me)) ==> r == Done
    ensures r.Failed? ==> db.users == old(db.users) && db.notifications == old(db.notifications)
    ensures r == Done ==> exists t :: (t != me && Resolves(old(db.users), FixChain(Trim(identifier)), t)
                                       && t in old(db.users) && me in old(db.users)
                                       && db.users == RequestSent(old(db.users), me, t)
                                       && db.notifications == old(db.notifications) + [Notification(t, me, FriendRequest)])
  {
    if me !in db.users {
      return Failed(NotLoggedIn);
    }
    var found := FindUserDocByIdentifier(db, identifier);
    if found.None? {
      return Failed(UserNotFound);
    }
    var target := found.value.id;
    ghost var chain := FixChain(Trim(identifier));
    assert Resolves(db.users, chain, target);
    if target == me {
      return Failed(SelfRequest);
    }
    assert target != me && target in db.users;
    RecordRequest(db, me, target);
    db.notifications := db.notifications + [Notification(target, me, FriendRequest)];
    r := Done;
  }

  /** `acceptFriendRequest` of the older module. It does not check that a
      request from `from` is pending. */
  method AcceptFriendRequest(db: Database, me: string, from: string) returns (r: Outcome)
    modifies db
    ensures db.clans == old(db.clans) && db.notifications == old(db.notifications)
    ensures me !in old(db.users) ==> r == Failed(NotLoggedIn) && db.users == old(db.users)
    ensures me in old(db.users) ==> r == Done && db.users == FriendAccepted(old(db.users), me, from)
  {
    if me !in db.users {
      return Failed(NotLoggedIn);
    }
    AcceptWrites(db, me, from);
    r := Done;
  }

  /** `acceptFriendRequest` of the newer module: the same two writes, then
      one `friend_accept` notification to `from`. */
  method AcceptFriendRequestFix(db: Database, me: string, from: string) returns (r: Outcome)
    modifies db
    ensures db.clans == old(db.clans)
    ensures me !in old(db.users) ==>
      r == Failed(NotLoggedIn) && db.users == old(db.users) && db.notifications == old(db.notifications)
    ensures me in old(db.users) ==>
      r == Done && db.users == FriendAccepted(old(db.users), me, from)
      && db.notifications == old(db.notifications) + [Notification(from, me, FriendAccept)]
  {
    if me !in db.users {
      return Failed(NotLoggedIn);
    }
    AcceptWrites(db, me, from);
    db.notifications := db.notifications + [Notification(from, me, FriendAccept)];
    r := Done;
  }

  /** The two writes of an accept, shared by both versions. */
  method AcceptWrites(db: Database, me: string, from: string)
    requires me in db.users
    modifies db
    ensures db.clans == old(db.clans) && db.notifications == old(db.notifications)
    ensures db.users == FriendAccepted(old(db.users), me, from)
  {
    var mine := db.users[me];
    db.users := db.users[me := mine.(friendRequestsReceived := ArrayRemove(mine.friendRequestsReceived, from),
                                     friends := ArrayUnion(mine.friends, from))];
    if from in db.users {
      var theirs := db.users[from];
      db.users := db.users[from := theirs.(friendRequestsSent := ArrayRemove(theirs.friendRequestsSent, me),
                                           friends := ArrayUnion(theirs.friends, me))];
    } else {
      db.users := db.users[from := NewUserDoc().(friends := [me])];
    }
  }

  /** `removeFriend`. */
  method RemoveFriend(db: Database, me: string, target: string) returns (r: Outcome)
    modifies db
    ensures db.clans == old(db.clans) && db.notifications == old(db.notifications)
    ensures me !in old(db.users) ==> r == Failed(NotLoggedIn) && db.users == old(db.users)
    ensures me in old(db.users) ==> r == Done && db.users == FriendRemoved(old(db.users), me, target)
  {
    if me !in db.users {
      return Failed(NotLoggedIn);
    }
    var mine := db.users[me];
    db.users := db.users[me := mine.(friends := ArrayRemove(mine.friends, target))];
    if target in db.users {
      var theirs := db.users[target];
      db.users := db.users[target := theirs.(friends := ArrayRemove(theirs.friends, me))];
    }
    r := Done;
  }

  /** The reject button of the friends list. */
  method RejectFriendRequest(db: Database, me: string, from: string) returns (r: Outcome)
    modifies db
    ensures db.clans == old(db.clans) && db.notifications == old(db.notifications)
    ensures me !in old(db.users) ==> r == Failed(NotLoggedIn) && db.users == old(db.users)
    ensures me in old(db.users) ==> r == Done && db.users == RequestRejected(old(db.users), me, from)
  {
    if me !in db.users {
      return Failed(NotLoggedIn);
    }
    var mine := db.users[me];
    db.users := db.users[me := mine.(friendRequestsReceived := ArrayRemove(mine.friendRequestsReceived, from))];
    if from in db.users {
      var theirs := db.users[from];
      db.users := db.users[from := theirs.(friendRequestsSent := ArrayRemove(theirs.friendRequestsSent, me))];
    }
    r := Done;
  }

  // ---------- Properties ----------

  /** Friendship is mutual: everyone on a friends list has a record that
      lists the owner back. */
  ghost predicate Symmetric(users: map<string, User>)
  {
    forall a, b :: a in users && b in users[a].friends ==> b in users && a in users[b].friends
  }

  /** No friends list holds a name twice. */
  ghost predicate FriendListsNoDup(users: map<string, User>)
  {
    forall a :: a in users ==> NoDup(users[a].friends)
  }

  /** A request is recorded on both sides, both lists stay free of
      duplicates, and no other field or record changes. */
  lemma RequestRecordedBothSides(users: map<string, User>, me: string, target: string)
    requires me in users && target in users && me != target
    ensures var r := RequestSent(users, me, target);
      r.Keys == users.Keys
      && target in r[me].friendRequestsSent && me in r[target].friendRequestsReceived
      && r[me] == users[me].(friendRequestsSent := r[me].friendRequestsSent)
      && r[target] == users[target].(friendRequestsReceived := r[target].friendRequestsReceived)
      && (NoDup(users[me].friendRequestsSent) ==> NoDup(r[me].friendRequestsSent))
      && (NoDup(users[target].friendRequestsReceived) ==> NoDup(r[target].friendRequestsReceived))
      && forall x :: x in users && x != me && x != target ==> r[x] == users[x]
  {
    if NoDup(users[me].friendRequestsSent) {
      UnionKeepsNoDup(users[me].friendRequestsSent, target);
    }
    if NoDup(users[target].friendRequestsReceived) {
      UnionKeepsNoDup(users[target].friendRequestsReceived, me);
    }
  }

  /** Sending the same request twice is the same as sending it once. */
  lemma RequestIdempotent(users: map<string, User>, me: string, target: string)
    requires me in users && target in users
    ensures RequestSent(RequestSent(users, me, target), me, target) == RequestSent(users, me, target)
  {
  }

  /** The friends lists after an accept, one record at a time. */
  lemma AcceptedFriends(users: map<string, User>, me: string, from: string)
    requires me in users
    ensures var r := FriendAccepted(users, me, from);
      r.Keys == users.Keys + {from}
      && (me != from ==> r[me].friends == ArrayUnion(users[me].friends, from))
      && (me != from && from in users ==> r[from].friends == ArrayUnion(users[from].friends, me))
      && (from !in users ==> r[from].friends == [me])
      && (me == from ==> r[me].friends == ArrayUnion(users[me].friends, me))
      && forall x :: x in users && x != me && x != from ==> r[x] == users[x]
  {
  }

  /** After an accept the two are friends of each other, the request is
      gone on both sides, and no other record changes. */
  lemma AcceptMakesFriends(users: map<string, User>, me: string, from: string)
    requires me in users
    ensures var r := FriendAccepted(users, me, from);
      r.Keys == users.Keys + {from}
      && from in r[me].friends && me in r[from].friends
      && from !in r[me].friendRequestsReceived && me !in r[from].friendRequestsSent
      && forall x :: x in users && x != me && x != from ==> r[x] == users[x]
  {
    AcceptedFriends(users, me, from);
  }

  /** An accept keeps friendship mutual and friends lists free of duplicates. */
  lemma AcceptPreservesInvariants(users: map<string, User>, me: string, from: string)
    requires me in users && Symmetric(users) && FriendListsNoDup(users)
    ensures Symmetric(FriendAccepted(users, me, from))
    ensures FriendListsNoDup(FriendAccepted(users, me, from))
  {
    var r := FriendAccepted(users, me, from);
    AcceptedFriends(users, me, from);
    forall a, b | a in r && b in r[a].friends
      ensures b in r && a in r[b].friends
    {
      if a != me && a != from {
        assert b in users[a].friends;
      } else if a == me && b != from {
        assert b in users[me].friends;
      } else if a == from && b != me {
        assert b in users[from].friends;
      }
    }
    forall a | a in r
      ensures NoDup(r[a].friends)
    {
      if a == me {
        UnionKeepsNoDup(users[me].friends, if me == from then me else from);
      } else if a == from && from in users {
        UnionKeepsNoDup(users[from].friends, me);
      }
    }
  }

  /** The friends lists after a removal, one record at a time. */
  lemma RemovedFriends(users: map<string, User>, me: string, target: string)
    requires me in users
    ensures var r := FriendRemoved(users, me, target);
      r.Keys == users.Keys
      && (me != target ==> r[me].friends == ArrayRemove(users[me].friends, target))
      && (me != target && target in users ==> r[target].friends == ArrayRemove(users[target].friends, me))
      && (me == target ==> r[me].friends == ArrayRemove(ArrayRemove(users[me].friends, me), me))
      && forall x :: x in users && x != me && x != target ==> r[x] == users[x]
  {
  }

  /** A removal keeps friendship mutual and friends lists free of
      duplicates, and afterwards neither is a friend of the other. */
  lemma RemovePreservesInvariants(users: map<string, User>, me: string, target: string)
    requires me in users && Symmetric(users) && FriendListsNoDup(users)
    ensures var r := FriendRemoved(users, me, target);
      Symmetric(r) && FriendListsNoDup(r)
      && target !in r[me].friends && (target in r ==> me !in r[target].friends)
  {
    var r := FriendRemoved(users, me, target);
    RemovedFriends(users, me, target);
    forall a, b | a in r && b in r[a].friends
      ensures b in r && a in r[b].friends
    {
      if a != me && a != target {
        assert b in users[a].friends;
      } else if a == me {
        assert b in users[me].friends;
      } else {
        assert b in users[target].friends;
      }
    }
    forall a | a in r
      ensures NoDup(r[a].friends)
    {
      if a == me {
        RemoveKeepsNoDup(users[me].friends, target);
        if me == target {
          RemoveKeepsNoDup(ArrayRemove(users[me].friends, me), me);
        }
      } else if a == target {
        RemoveKeepsNoDup(users[target].friends, me);
      }
    }
  }

  /** Removing a friend undoes accepting a request from someone who was
      not a friend yet: every friends list is as before. */
  lemma RemoveUndoesAccept(users: map<string, User>, me: string, from: string)
    requires me in users && from in users && me != from
    requires from !in users[me].friends && me !in users[from].friends
    ensures var r := FriendRemoved(FriendAccepted(users, me, from), me, from);
      r.Keys == users.Keys && forall x :: x in users ==> r[x].friends == users[x].friends
  {
    AcceptThenRemovePair(users, me, from);
    SameFriendsOutsidePair(users, FriendAccepted(users, me, from),
                           FriendRemoved(FriendAccepted(users, me, from), me, from), me, from);
  }

  /** The two records an accept and then a removal touch get their old
      friends lists back. */
  lemma AcceptThenRemovePair(users: map<string, User>, me: string, from: string)
    requires me in users && from in users && me != from
    requires from !in users[me].friends && me !in users[from].friends
    ensures var r := FriendRemoved(FriendAccepted(users, me, from), me, from);
      r[me].friends == users[me].friends && r[from].friends == users[from].friends
  {
    UnionThenRemove(users[me].friends, from);
    UnionThenRemove(users[from].friends, me);
  }

  /** Two updates that leave everyone but `me` and `from` alone, and give
      those two their old friends lists back, restore every friends list. */
  lemma SameFriendsOutsidePair(users: map<string, User>, acc: map<string, User>, r: map<string, User>,
                               me: string, from: string)
    requires me in users && from in users
    requires acc.Keys == users.Keys && r.Keys == acc.Keys
    requires forall x :: x in users && x != me && x != from ==> acc[x] == users[x]
    requires forall x :: x in acc && x != me && x != from ==> r[x] == acc[x]
    requires r[me].friends == users[me].friends && r[from].friends == users[from].friends
    ensures r.Keys == users.Keys && forall x :: x in users ==> r[x].friends == users[x].friends
  {
  }

  /** A rejection drops the request on both sides and leaves every
      friends list alone. */
  lemma RejectDropsRequest(users: map<string, User>, me: string, from: string)
    requires me in users
    ensures var r := RequestRejected(users, me, from);
      r.Keys == users.Keys && from !in r[me].friendRequestsReceived
      && (from in users ==> me !in r[from].friendRequestsSent)
      && forall x :: x in users ==> r[x].friends == users[x].friends
  {
  }
}

=== FILE: html_escape.dfy ===
/** `escapeHtml`: null and undefined become the empty string; each of the
    eight characters & < > " ' / = ` is replaced by its HTML entity and every
    other character is copied unchanged. */
module HtmlEscape {
  import opened Docs

  /** The characters the replacement pattern `/[&<>"'`=\/]/g` matches. */
  predicate IsSpecial(c: char)
  {
    c == '&' || c == '<' || c == '>' || c == '"' || c == '\'' || c == '`' || c == '=' || c == '/'
  }

  /** The characters that must not appear raw in escaped text (all specials but `&`,
      which every entity starts with). */
  predicate IsMarkup(c: char)
  {
    IsSpecial(c) && c != '&'
  }

  /** The replacement of one character. */
  function EscapeChar(c: char): (r: string)
    ensures IsSpecial(c) ==> 4 <= |r| && r[0] == '&' && r[|r| - 1] == ';'
    ensures !IsSpecial(c) ==> r == [c]
    ensures forall d :: d in r ==> !IsMarkup(d)
  {
    match c
    case '&' => "&amp;"
    case '<' => "&lt;"
    case '>' => "&gt;"
    case '"' => "&quot;"
    case '\'' => "&#39;"
    case '/' => "&#x2F;"
    case '=' => "&#x3D;"
    case '`' => "&#x60;"
    case _ => [c]
  }

  /** The per-character replacement over a whole string. */
  function Escape(s: string): (r: string)
    ensures |s| <= |r|
    ensures forall d :: d in r ==> !IsMarkup(d)
  {
    if s == [] then [] else EscapeChar(s[0]) + Escape(s[1..])
  }

  /** `escapeHtml(s)`, with `None` for null or undefined. */
  function EscapeHtml(s: Option<string>): (r: string)
    ensures s.None? ==> r == []
    ensures forall d :: d in r ==> !IsMarkup(d)
    ensures s.Some? ==> Unescape(r) == s.value
  {
    match s
    case None => []
    case Some(t) => EscapeRoundTrip(t); Escape(t)
  }

  /** Reads one character back from the front of escaped text: an entity
      gives its character, anything else gives itself. Returns the character
      and how many characters it used. */
  function DecodeFront(s: string): (r: (char, nat))
    requires s != []
    ensures 1 <= r.1 <= |s|
  {
    if "&amp;" <= s then ('&', 5)
    else if "&lt;" <= s then ('<', 4)
    else if "&gt;" <= s then ('>', 4)
    else if "&quot;" <= s then ('"', 6)
    else if "&#39;" <= s then ('\'', 5)
    else if "&#x2F;" <= s then ('/', 6)
    else if "&#x3D;" <= s then ('=', 6)
    else if "&#x60;" <= s then ('`', 6)
    else (s[0], 1)
  }

  /** The inverse of `Escape`: decodes the eight entities. */
  function Unescape(s: string): string
    decreases |s|
  {
    if s == [] then []
    else
      var (c, n) := DecodeFront(s);
      [c] + Unescape(s[n..])
  }

  /** Decoding the front of an escaped character followed by anything gives
      back that character and consumes exactly its replacement. */
  lemma DecodeEscapedChar(c: char, t: string)
    ensures DecodeFront(EscapeChar(c) + t) == (c, |EscapeChar(c)|)
  {
    var e := EscapeChar(c);
    var s := e + t;
    assert s[..|e|] == e;
    if !IsSpecial(c) {
      assert s[0] == c && c != '&';
    } else {
      // the entities differ at index 1, 2 or 3, so no earlier one is a prefix
      assert s[1] == e[1] && s[2] == e[2] && s[3] == e[3];
    }
  }

  /** Escaping distributes over concatenation. */
  lemma {:induction false} EscapeAppend(a: string, b: string)
    ensures Escape(a + b) == Escape(a) + Escape(b)
  {
    if a == [] {
      assert a + b == b;
    } else {
      assert (a + b)[0] == a[0] && (a + b)[1..] == a[1..] + b;
      EscapeAppend(a[1..], b);
    }
  }

  /** Unescaping an escaped string gives the string back. */
  lemma {:induction false} EscapeRoundTrip(s: string)
    ensures Unescape(Escape(s)) == s
  {
    if s != [] {
      var e := EscapeChar(s[0]);
      var t := Escape(s[1..]);
      DecodeEscapedChar(s[0], t);
      assert (e + t)[|e|..] == t;
      EscapeRoundTrip(s[1..]);
      assert Unescape(e + t) == [s[0]] + Unescape(t);
    }
  }

  /** Different strings escape differently. */
  lemma EscapeInjective(a: string, b: string)
    requires Escape(a) == Escape(b)
    ensures a == b
  {
    EscapeRoundTrip(a);
    EscapeRoundTrip(b);
  }

  /** Characters other than the eight specials are copied unchanged, so a
      string without them escapes to itself. */
  lemma {:induction false} EscapePlainIsIdentity(s: string)
    requires forall c :: c in s ==> !IsSpecial(c)
    ensures Escape(s) == s
  {
    if s != [] {
      assert s[0] in s;
      assert forall c :: c in s[1..] ==> c in s;
      EscapePlainIsIdentity(s[1..]);
      assert s == [s[0]] + s[1..];
    }
  }
}

=== FILE: ledger.dfy ===
/** The reward operations on the store: the in-place daily claim, the
    transactional daily claim and opening a loot box. Signing in is a read of
    the user's record: a name without a record is not signed in. */
module Ledger {
  import opened Docs
  import opened AbuseScore
  import opened Rewards

  /** `claimDailyReward`: loads the record, edits `streak`,
      `lastDailyClaim` and `balance` one after another, and saves it. */
  method ClaimDailyReward(db: Database, me: string, today: int, localClicks: nat) returns (r: Outcome)
    modifies db
    ensures db.clans == old(db.clans) && db.notifications == old(db.notifications)
    ensures me !in old(db.users) ==> r == Failed(NotLoggedIn) && db.users == old(db.users)
    ensures me in old(db.users) ==>
      var c := ClaimDaily(old(db.users)[me], today, localClicks);
      (c.Rejected? ==> r == Failed(c.failure) && db.users == old(db.users))
      && (c.Committed? ==> r == Done && db.users == old(db.users)[me := ApplyClaim(old(db.users)[me], c)])
  {
    if me !in db.users {
      return Failed(NotLoggedIn);
    }
    var u := db.users[me];
    ghost var loaded := u;
    if u.lastDailyClaim == Some(today) {
      return Failed(AlreadyClaimedToday);
    }
    u := u.(streak := if u.lastDailyClaim == Some(today - 1) then u.streak + 1 else 1);
    u := u.(lastDailyClaim := Some(today));
    var cap := IMin(StreakCapDays, if u.streak != 0 then u.streak else 1);
    var reward := BaseReward(cap);
    var earnFactor := EarnFactor(u, localClicks);
    var actual := Payout(reward, earnFactor);
    u := u.(balance := u.balance + actual);
    assert ClaimDaily(loaded, today, localClicks) == Committed(today, u.streak, actual);
    assert u == ApplyClaim(loaded, Committed(today, u.streak, actual));
    db.users := db.users[me := u];
    r := Done;
  }

  /** `claimDailyRewardSafe`: one transaction that reads the record, runs
      the claim computation on the snapshot and commits a merge write of
      `lastDailyClaim`, `streak` and an increment of `balance`. */
  method ClaimDailyRewardSafe(db: Database, me: string, today: int, localClicks: nat) returns (r: Outcome)
    modifies db
    ensures db.clans == old(db.clans) && db.notifications == old(db.notifications)
    ensures me !in old(db.users) ==> r == Failed(NotLoggedIn) && db.users == old(db.users)
    ensures me in old(db.users) ==>
      var c := ClaimDailySafe(Some(old(db.users)[me]), today, localClicks);
      (c.Rejected? ==> r == Failed(c.failure) && db.users == old(db.users))
      && (c.Committed? ==> r == Done && db.users == old(db.users)[me := ApplyClaim(old(db.users)[me], c)])
  {
    if me !in db.users {
      return Failed(NotLoggedIn);
    }
    var snap := db.users[me];
    var c := ClaimDailySafe(Some(snap), today, localClicks);
    match c
    case Rejected(failure) =>
      r := Failed(failure);
    case Committed(day, streak, actual) =>
      db.users := db.users[me := snap.(lastDailyClaim := Some(day), streak := streak, balance := snap.balance + actual)];
      r := Done;
  }

  /** `openBox(kind)` with the drawn `reward`, the new box's id and time:
      edits `balance`, `dailyClicks` and `boxes` of the loaded record and
      saves it. It does not check the button's threshold. */
  method OpenBox(db: Database, me: string, kind: BoxKind, reward: int, id: string, createdAt: int, localClicks: nat)
    returns (r: Outcome)
    requires RewardInRange(kind, reward)
    modifies db
    ensures db.clans == old(db.clans) && db.notifications == old(db.notifications)
    ensures me !in old(db.users) ==> r == Failed(NotLoggedIn) && db.users == old(db.users)
    ensures me in old(db.users) ==>
      r == Done && db.users == old(db.users)[me := OpenedBox(old(db.users)[me], kind, reward, id, createdAt, localClicks)]
  {
    if me !in db.users {
      return Failed(NotLoggedIn);
    }
    var u := db.users[me];
    ghost var loaded := u;
    var earnFactor := EarnFactor(u, localClicks);
    var actual := Payout(reward as real, earnFactor);
    u := u.(balance := u.balance + actual);
    var deduct := Threshold(kind);
    u := u.(dailyClicks := if u.dailyClicks - deduct >= 0 then u.dailyClicks - deduct else 0);
    u := u.(boxes := u.boxes + [Box(id, kind, actual, createdAt)]);
    assert u == OpenedBox(loaded, kind, reward, id, createdAt, localClicks);
    db.users := db.users[me := u];
    r := Done;
  }
}

=== FILE: lookup.dfy ===
/** `findUserDocByIdentifier`: turns what a player typed into the id of a
    user record by trying a fixed list of lookups in order and taking the
    first one that finds anything. The newer version tries six lookups, the
    older one three. */
module Lookup {
  import opened Docs

  /** The characters `String.prototype.trim` removes: the ECMAScript
      white space and line terminators. */
  predicate IsWhite(c: char)
  {
    c == '\t' || c == '\U{000B}' || c == '\U{000C}' || c == ' ' || c == '\U{00A0}' || c == '\U{FEFF}'
    || c == '\U{1680}' || ('\U{2000}' <= c <= '\U{200A}') || c == '\U{202F}' || c == '\U{205F}'
    || c == '\U{3000}' || c == '\n' || c == '\r' || c == '\U{2028}' || c == '\U{2029}'
  }

  /** Every character of `s` is white space. */
  predicate AllWhite(s: string)
  {
    forall j :: 0 <= j < |s| ==> IsWhite(s[j])
  }

  /** `s` with its leading white space removed. */
  function TrimStart(s: string): (r: string)
    ensures |r| <= |s| && r == s[|s| - |r|..]
    ensures r != [] ==> !IsWhite(r[0])
    ensures AllWhite(s[..|s| - |r|])
  {
    if s != [] && IsWhite(s[0]) then
      var r := TrimStart(s[1..]);
      assert s[..|s| - |r|] == [s[0]] + s[1..][..|s| - 1 - |r|];
      r
    else s
  }

  /** `s` with its trailing white space removed. */
  function TrimEnd(s: string): (r: string)
    ensures |r| <= |s| && r == s[..|r|]
    ensures r != [] ==> !IsWhite(r[|r| - 1])
    ensures AllWhite(s[|r|..])
  {
    if s != [] && IsWhite(s[|s| - 1]) then
      var r := TrimEnd(s[..|s| - 1]);
      assert s[|r|..] == s[..|s| - 1][|r|..] + [s[|s| - 1]];
      r
    else s
  }

  /** `r` is the piece of `s` starting at `i`, with only white space
      before and after it. */
  ghost predicate TrimmedAt(s: string, r: string, i: int)
  {
    0 <= i <= |s| - |r| && r == s[i..i + |r|]
    && AllWhite(s[..i]) && AllWhite(s[i + |r|..])
  }

  /** `s.trim()`: a contiguous piece of `s` that neither starts nor ends with
      white space, and everything cut off around it is white space. */
  function Trim(s: string): (r: string)
    ensures exists i :: TrimmedAt(s, r, i)
    ensures r != [] ==> !IsWhite(r[0]) && !IsWhite(r[|r| - 1])
  {
    TrimBothEnds(s);
    TrimEnd(TrimStart(s))
  }

  /** The two one-sided trims leave the piece of `s` that starts where the
      leading white space ends. */
  lemma TrimBothEnds(s: string)
    ensures TrimmedAt(s, TrimEnd(TrimStart(s)), |s| - |TrimStart(s)|)
  {
    var t := TrimStart(s);
    var r := TrimEnd(t);
    var i := |s| - |t|;
    assert t == s[i..];
    assert r == s[i..i + |r|];
    assert s[i + |r|..] == t[|r|..];
  }

  /** A string trims to nothing exactly when it is all white space. */
  lemma BlankIffAllWhite(s: string)
    ensures Trim(s) == [] <==> AllWhite(s)
  {
    var r := Trim(s);
    var i :| TrimmedAt(s, r, i);
    if r != [] {
      assert s[i] == r[0];
    }
  }

  /** Trimming twice is trimming once. */
  lemma TrimIdempotent(s: string)
    ensures Trim(Trim(s)) == Trim(s)
  {
    var r := Trim(s);
    if r != [] {
      assert TrimStart(r) == r;
      assert TrimEnd(r) == r;
    }
  }

  /** `toLowerCase` on one character, for the ASCII letters. */
  function LowerChar(c: char): (d: char)
    ensures 'A' <= c <= 'Z' ==> d as int == c as int + 32
    ensures !('A' <= c <= 'Z') ==> d == c
    ensures !('A' <= d <= 'Z')
  {
    if 'A' <= c <= 'Z' then (c as int + 32) as char else c
  }

  /** `s.toLowerCase()`, for the ASCII letters. */
  function Lower(s: string): (r: string)
    ensures |r| == |s|
    ensures forall i :: 0 <= i < |s| ==> r[i] == LowerChar(s[i])
  {
    seq(|s|, i requires 0 <= i < |s| => LowerChar(s[i]))
  }

  /** Lower-casing twice is lower-casing once. */
  lemma LowerIdempotent(s: string)
    ensures Lower(Lower(s)) == Lower(s)
  {
    assert forall i :: 0 <= i < |s| ==> LowerChar(LowerChar(s[i])) == LowerChar(s[i]);
  }

  /** One lookup of the chain. */
  datatype Strategy =
    | DocId(key: string)                   // `doc(key).get()`
    | UsernameLowerIs(v: string)           // `where('usernameLower', '==', v)`
    | UsernameIs(v: string)                // `where('username', '==', v)`
    | ProfileNameIs(v: string)             // `where('profileName', '==', v)`
    | UsernameLowerStartsWith(p: string)   // `orderBy('usernameLower').startAt(p).endAt(p + '\uf8ff')`

  /** What the lookup returns: the record's id and its contents. */
  datatype Found = Found(id: string, data: User)

  /** Record `k` is a result of lookup `q`. */
  predicate Answers(users: map<string, User>, q: Strategy, k: string)
  {
    k in users &&
    match q
    case DocId(key) => k == key
    case UsernameLowerIs(v) => users[k].usernameLower == Some(v)
    case UsernameIs(v) => users[k].username == Some(v)
    case ProfileNameIs(v) => users[k].profileName == Some(v)
    case UsernameLowerStartsWith(p) => users[k].usernameLower.Some? && p <= users[k].usernameLower.value
  }

  ghost predicate Succeeds(users: map<string, User>, q: Strategy)
  {
    exists k :: Answers(users, q, k)
  }

  /** The newer chain for a trimmed, non-blank identifier. */
  function FixChain(idRaw: string): seq<Strategy>
  {
    var low := Lower(idRaw);
    [DocId(idRaw), DocId(low), UsernameLowerIs(low), UsernameIs(idRaw), ProfileNameIs(idRaw),
     UsernameLowerStartsWith(low)]
  }

  /** The older chain for the trimmed identifier `id`: the profile-name
      lookup uses the identifier as typed, not the trimmed one. */
  function LegacyChain(id: string, identifier: string): seq<Strategy>
  {
    [DocId(id), UsernameLowerIs(Lower(id)), ProfileNameIs(identifier)]
  }

  /** Lookup `i` is the first of `chain` that finds something. */
  ghost predicate FirstSuccess(users: map<string, User>, chain: seq<Strategy>, i: int)
  {
    0 <= i < |chain| && Succeeds(users, chain[i])
    && forall j :: 0 <= j < i ==> !Succeeds(users, chain[j])
  }

  /** `k` is a record the chain may return: a result of its first
      successful lookup. */
  ghost predicate Resolves(users: map<string, User>, chain: seq<Strategy>, k: string)
  {
    exists i :: FirstSuccess(users, chain, i) && Answers(users, chain[i], k)
  }

  ghost predicate NoneSucceeds(users: map<string, User>, chain: seq<Strategy>)
  {
    forall i :: 0 <= i < |chain| ==> !Succeeds(users, chain[i])
  }

  /** Runs one lookup; when several records match, any one of them may
      come back. */
  method RunStrategy(db: Database, q: Strategy) returns (r: Option<string>)
    ensures r.Some? ==> Answers(db.users, q, r.value)
    ensures r.None? <==> !Succeeds(db.users, q)
  {
    if q.DocId? {
      if q.key in db.users {
        assert Answers(db.users, q, q.key);
        return Some(q.key);
      }
      return None;
    }
    if k :| k in db.users && Answers(db.users, q, k) {
      r := Some(k);
    } else {
      r := None;
    }
  }

  /** Runs `chain` from lookup `from` on and returns the first hit. */
  method RunChain(db: Database, chain: seq<Strategy>, from: nat) returns (found: Option<Found>)
    requires forall j :: 0 <= j < from && j < |chain| ==> !Succeeds(db.users, chain[j])
    ensures found.Some? ==> found.value.id in db.users && found.value.data == db.users[found.value.id]
    ensures found.Some? ==> Resolves(db.users, chain, found.value.id)
    ensures found.None? <==> NoneSucceeds(db.users, chain)
    decreases |chain| - from
  {
    if from >= |chain| {
      return None;
    }
    var hit := RunStrategy(db, chain[from]);
    if hit.Some? {
      assert FirstSuccess(db.users, chain, from);
      return Some(Found(hit.value, db.users[hit.value]));
    }
    found := RunChain(db, chain, from + 1);
  }

  /** The newer `findUserDocByIdentifier`: nothing for a blank identifier,
      otherwise the first hit of the six lookups on the trimmed text. */
  method FindUserDocByIdentifier(db: Database, identifier: string) returns (found: Option<Found>)
    ensures Trim(identifier) == [] ==> found.None?
    ensures found.Some? ==> found.value.id in db.users && found.value.data == db.users[found.value.id]
    ensures found.Some? ==> Resolves(db.users, FixChain(Trim(identifier)), found.value.id)
    ensures found.None? <==> Trim(identifier) == [] || NoneSucceeds(db.users, FixChain(Trim(identifier)))
  {
    var idRaw := Trim(identifier);
    if idRaw == [] {
      return None;
    }
    found := RunChain(db, FixChain(idRaw), 0);
  }

  /** The older `findUserDocByIdentifier`, with its three lookups. */
  method FindUserDocByIdentifierLegacy(db: Database, identifier: string) returns (found: Option<Found>)
    ensures Trim(identifier) == [] ==> found.None?
    ensures found.Some? ==> found.value.id in db.users && found.value.data == db.users[found.value.id]
    ensures found.Some? ==> Resolves(db.users, LegacyChain(Trim(identifier), identifier), found.value.id)
    ensures found.None? <==> Trim(identifier) == [] || NoneSucceeds(db.users, LegacyChain(Trim(identifier), identifier))
  {
    var id := Trim(identifier);
    if id == [] {
      return None;
    }
    found := RunChain(db, LegacyChain(id, identifier), 0);
  }

  /** An identifier that is, once trimmed, the id of a record always finds
      that record and no other. */
  lemma ExactIdWins(users: map<string, User>, idRaw: string, k: string)
    requires idRaw in users
    ensures Resolves(users, FixChain(idRaw), k) <==> k == idRaw
  {
    var chain := FixChain(idRaw);
    assert Answers(users, chain[0], idRaw);
    assert FirstSuccess(users, chain, 0);
    if Resolves(users, chain, k) {
      var i :| FirstSuccess(users, chain, i) && Answers(users, chain[i], k);
      assert i == 0;
    }
  }

  /** When no record has the identifier as its id, a record whose id is
      the lower-cased identifier is found next. */
  lemma LowerCaseIdSecond(users: map<string, User>, idRaw: string, k: string)
    requires idRaw !in users && Lower(idRaw) in users
    ensures Resolves(users, FixChain(idRaw), k) <==> k == Lower(idRaw)
  {
    var chain := FixChain(idRaw);
    assert !Succeeds(users, chain[0]);
    assert Answers(users, chain[1], Lower(idRaw));
    assert FirstSuccess(users, chain, 1);
    if Resolves(users, chain, k) {
      var i :| FirstSuccess(users, chain, i) && Answers(users, chain[i], k);
      assert i == 1;
    }
  }

  /** The newer chain finds a record whenever the older one does, for an
      identifier typed without surrounding white space (so the trimmed and
      the typed identifier are the same). */
  lemma FixChainFindsWhatLegacyFinds(users: map<string, User>, idRaw: string)
    requires !NoneSucceeds(users, LegacyChain(idRaw, idRaw))
    ensures !NoneSucceeds(users, FixChain(idRaw))
  {
    var legacy, fix := LegacyChain(idRaw, idRaw), FixChain(idRaw);
    var i :| 0 <= i < |legacy| && Succeeds(users, legacy[i]);
    var k :| Answers(users, legacy[i], k);
    var j := if i == 0 then 0 else if i == 1 then 2 else 4;
    assert Answers(users, fix[j], k);
  }
}

=== FILE: rewards.dfy ===
/** The reward rules as values: the daily streak claim in its two versions
    (`claimDailyReward`, which edits the loaded record, and the transaction
    body of `claimDailyRewardSafe`), and the loot-box rules (`refresh` and
    `openBox`). Amounts are exact reals; `Math.round(x * 100) / 100` is
    rounding to the nearest cent, halves up. */
module Rewards {
  import opened Docs
  import opened AbuseScore

  /** The streak bonus stops growing after this many days. */
  const StreakCapDays := 7
  const NormalThreshold := 400
  const BigThreshold := 700

  function IMin(a: int, b: int): int { if a <= b then a else b }

  /** `Math.round(x * 100) / 100`. */
  function RoundCents(x: real): (r: real)
    ensures x - 0.005 < r <= x + 0.005
    ensures (r * 100.0).Floor as real == r * 100.0
  {
    RoundHalfUp(x * 100.0) as real / 100.0
  }

  /** Rounding to cents is monotone. */
  lemma RoundCentsMonotone(x: real, y: real)
    requires x <= y
    ensures RoundCents(x) <= RoundCents(y)
  {
    RoundMonotone(x * 100.0, y * 100.0);
  }

  /** An amount that is already a whole number of cents is left alone. */
  lemma RoundCentsOfCents(n: int)
    ensures RoundCents(n as real / 100.0) == n as real / 100.0
  {
    var x := n as real / 100.0;
    assert x * 100.0 == n as real;
    RoundMonotone(n as real, n as real);
  }

  // ---------- Daily streak ----------

  /** The streak after a claim on `today`: one more than the stored streak if
      the last claim was yesterday, otherwise a fresh streak of 1. */
  function NewStreak(u: User, today: int): (s: int)
    ensures s == 1 || (u.lastDailyClaim == Some(today - 1) && s == u.streak + 1)
    ensures u.lastDailyClaim != Some(today - 1) ==> s == 1
    ensures u.streak >= 0 ==> s >= 1
  {
    if u.lastDailyClaim == Some(today - 1) then u.streak + 1 else 1
  }

  /** The reward before the earn factor for a capped streak: 1, plus one
      half per extra day. */
  function BaseReward(cap: int): (r: real)
    ensures 1 <= cap ==> 1.0 <= r
    ensures cap <= StreakCapDays ==> r <= 4.0
  {
    1.0 + (cap - 1) as real * 0.5
  }

  /** `Math.round(reward * earnFactor * 100) / 100`. */
  function Payout(reward: real, earnFactor: real): real
  {
    RoundCents(reward * earnFactor)
  }

  /** The outcome of a claim: rejected, or the three fields the commit
      writes (the claim day, the new streak, and the amount added to the
      balance). */
  datatype Claim =
    | Rejected(failure: Failure)
    | Committed(day: int, streak: int, actual: real)

  /** The record after a committed claim: only `lastDailyClaim`, `streak`
      and `balance` change, and the balance grows by the payout. */
  function ApplyClaim(u: User, c: Claim): (v: User)
    requires c.Committed?
    ensures v.lastDailyClaim == Some(c.day) && v.streak == c.streak
    ensures v.balance == u.balance + c.actual
    ensures v.(lastDailyClaim := u.lastDailyClaim, streak := u.streak, balance := u.balance) == u
  {
    u.(lastDailyClaim := Some(c.day), streak := c.streak, balance := u.balance + c.actual)
  }

  /** `claimDailyReward` on the loaded record `u`: rejected if it already
      claimed today; otherwise the new streak, the claim day, and the base
      reward for `min(7, streak || 1)` scaled by the earn factor. */
  function ClaimDaily(u: User, today: int, localClicks: nat): (c: Claim)
    ensures c.Rejected? <==> u.lastDailyClaim == Some(today)
    ensures c.Rejected? ==> c.failure == AlreadyClaimedToday
    ensures c.Committed? ==> c.day == today && c.streak == NewStreak(u, today)
    ensures c.Committed? ==>
      c.actual == Payout(BaseReward(IMin(StreakCapDays, if c.streak != 0 then c.streak else 1)),
                         EarnFactor(u.(streak := c.streak, lastDailyClaim := Some(today)), localClicks))
  {
    if u.lastDailyClaim == Some(today) then Rejected(AlreadyClaimedToday)
    else
      var streak := NewStreak(u, today);
      var claimed := u.(streak := streak, lastDailyClaim := Some(today));
      var cap := IMin(StreakCapDays, if streak != 0 then streak else 1);
      var reward := BaseReward(cap);
      var earnFactor := EarnFactor(claimed, localClicks);
      Committed(today, streak, Payout(reward, earnFactor))
  }

  /** The earn factor of the transactional version: the score's factor, or
      1.0 when that factor is falsy (`r.earnFactor || 1.0`). */
  function SafeEarnFactor(u: User, localClicks: nat): (f: real)
    ensures f == 1.0 <==> Banned(u) || EarnFactor(u, localClicks) == 1.0
  {
    var f := EarnFactor(u, localClicks);
    if f != 0.0 then f else 1.0
  }

  /** The body of `claimDailyRewardSafe`'s transaction on the snapshot of the
      user document: aborts if it is missing or already claimed today;
      otherwise the new streak, the claim day, and the base reward for
      `min(7, streak)` scaled by `SafeEarnFactor`. */
  function ClaimDailySafe(snap: Option<User>, today: int, localClicks: nat): (c: Claim)
    ensures snap.None? ==> c == Rejected(UserNotFound)
    ensures snap.Some? ==> (c.Rejected? <==> snap.value.lastDailyClaim == Some(today))
    ensures snap.Some? && c.Rejected? ==> c.failure == AlreadyClaimedToday
    ensures c.Committed? ==> c.day == today && c.streak == NewStreak(snap.value, today)
    ensures c.Committed? ==>
      c.actual == Payout(BaseReward(IMin(StreakCapDays, c.streak)), SafeEarnFactor(snap.value, localClicks))
  {
    match snap
    case None => Rejected(UserNotFound)
    case Some(u) =>
      if u.lastDailyClaim == Some(today) then Rejected(AlreadyClaimedToday)
      else
        var newStreak := NewStreak(u, today);
        var cap := IMin(StreakCapDays, newStreak);
        var reward := BaseReward(cap);
        Committed(today, newStreak, Payout(reward, SafeEarnFactor(u, localClicks)))
  }

  /** `claimDailyRewardSafe` as evidently intended: the 1.0 default applies
      only when no scoring function is available, so the score's own factor
      is used as it is. */
  function IntendedClaimDailySafe(snap: Option<User>, today: int, localClicks: nat): (c: Claim)
    ensures snap.None? ==> c == Rejected(UserNotFound)
    ensures snap.Some? ==> (c.Rejected? <==> snap.value.lastDailyClaim == Some(today))
    ensures c.Committed? ==> c.day == today && c.streak == NewStreak(snap.value, today)
    ensures c.Committed? ==>
      c.actual == Payout(BaseReward(IMin(StreakCapDays, c.streak)), EarnFactor(snap.value, localClicks))
  {
    match snap
    case None => Rejected(UserNotFound)
    case Some(u) =>
      if u.lastDailyClaim == Some(today) then Rejected(AlreadyClaimedToday)
      else
        var newStreak := NewStreak(u, today);
        var cap := IMin(StreakCapDays, newStreak);
        Committed(today, newStreak, Payout(BaseReward(cap), EarnFactor(u, localClicks)))
  }

  /** The base reward over capped streaks 1..7: from 1.00 up to 4.00, never
      decreasing, and a whole number of cents. */
  lemma BaseRewardRange(cap: int, cap': int)
    requires 1 <= cap <= cap' <= StreakCapDays
    ensures 1.0 <= BaseReward(cap) <= BaseReward(cap') <= 4.0
    ensures BaseReward(1) == 1.0 && BaseReward(4) == 2.5 && BaseReward(7) == 4.0
    ensures RoundCents(BaseReward(cap)) == BaseReward(cap)
  {
    assert BaseReward(cap) == (50 * (cap + 1)) as real / 100.0;
    RoundCentsOfCents(50 * (cap + 1));
  }

  /** A lower earn factor never pays more. */
  lemma LowerFactorNeverPaysMore(reward: real, f: real, g: real)
    requires 0.0 <= reward && f <= g
    ensures Payout(reward, f) <= Payout(reward, g)
  {
    MulMonotone(reward, f, g);
    RoundCentsMonotone(reward * f, reward * g);
  }

  /** A whole amount is a whole number of cents. */
  lemma RoundCentsOfWhole(n: int)
    ensures RoundCents(n as real) == n as real
  {
    assert (n * 100) as real / 100.0 == n as real;
    RoundCentsOfCents(n * 100);
  }

  /** Scaling by a factor in [0, 1] stays between 0 and the amount. */
  lemma ScaleBounds(r: real, f: real)
    requires 0.0 <= r && 0.0 <= f <= 1.0
    ensures 0.0 <= r * f <= r
  {
    MulMonotone(r, 0.0, f);
    MulMonotone(r, f, 1.0);
    assert r * 1.0 == r && r * 0.0 == 0.0;
  }

  /** Scaling a whole number of cents by a factor in [0, 1] and rounding
      stays between 0 and the amount. */
  lemma ScaledPayoutBounds(r: real, f: real)
    requires 0.0 <= r && RoundCents(r) == r && 0.0 <= f <= 1.0
    ensures 0.0 <= Payout(r, f) <= r
  {
    ScaleBounds(r, f);
    RoundedBetween(r * f, r);
  }

  /** Rounding an amount between 0 and a whole number of cents `r` stays
      between 0 and `r`. */
  lemma RoundedBetween(x: real, r: real)
    requires 0.0 <= x <= r && RoundCents(r) == r
    ensures 0.0 <= RoundCents(x) <= r
  {
    RoundCentsMonotone(0.0, x);
    RoundCentsMonotone(x, r);
    RoundCentsOfWhole(0);
  }

  /** A zero earn factor pays nothing. */
  lemma PayoutOfZeroFactor(r: real)
    ensures Payout(r, 0.0) == 0.0
  {
    assert r * 0.0 == 0.0 / 100.0;
    RoundCentsOfCents(0);
  }

  /** A payout of an earn factor in [0, 1] lies between 0 and the reward. */
  lemma PayoutBounds(cap: int, earnFactor: real)
    requires 1 <= cap <= StreakCapDays
    requires 0.0 <= earnFactor <= 1.0
    ensures 0.0 <= Payout(BaseReward(cap), earnFactor) <= BaseReward(cap)
  {
    BaseRewardRange(cap, cap);
    ScaledPayoutBounds(BaseReward(cap), earnFactor);
  }

  /** For a record with a non-negative streak, a claim pays between 0 and 4
      and the balance never decreases. */
  lemma ClaimPayoutRange(u: User, today: int, localClicks: nat)
    requires u.streak >= 0
    requires u.lastDailyClaim != Some(today)
    ensures var c := ClaimDaily(u, today, localClicks);
      c.Committed? && 0.0 <= c.actual <= 4.0 && u.balance <= ApplyClaim(u, c).balance
  {
    var streak := NewStreak(u, today);
    var cap := IMin(StreakCapDays, streak);
    var claimed := u.(streak := streak, lastDailyClaim := Some(today));
    PayoutBounds(cap, EarnFactor(claimed, localClicks));
    BaseRewardRange(cap, StreakCapDays);
  }

  /** A claim is accepted at most once per day: right after a committed
      claim, a claim on the same day is rejected. */
  lemma ClaimOncePerDay(u: User, today: int, k1: nat, k2: nat)
    requires ClaimDaily(u, today, k1).Committed?
    ensures ClaimDaily(ApplyClaim(u, ClaimDaily(u, today, k1)), today, k2) == Rejected(AlreadyClaimedToday)
    ensures ClaimDailySafe(Some(ApplyClaim(u, ClaimDaily(u, today, k1))), today, k2) == Rejected(AlreadyClaimedToday)
  {
  }

  /** Claims on consecutive days grow the streak by one each day. */
  lemma ConsecutiveClaimsGrowStreak(u: User, today: int, k1: nat, k2: nat)
    requires u.lastDailyClaim != Some(today)
    ensures var v := ApplyClaim(u, ClaimDaily(u, today, k1));
      ClaimDaily(v, today + 1, k2).Committed? && ClaimDaily(v, today + 1, k2).streak == v.streak + 1
  {
  }

  /** A banned user's claim still advances the streak and marks the day,
      but pays exactly 0. */
  lemma BannedClaimPaysNothing(u: User, today: int, localClicks: nat)
    requires Banned(u) && u.lastDailyClaim != Some(today)
    ensures var c := ClaimDaily(u, today, localClicks);
      c.Committed? && c.actual == 0.0 && c.streak == NewStreak(u, today)
      && ApplyClaim(u, c).balance == u.balance
  {
    var claimed := u.(streak := NewStreak(u, today), lastDailyClaim := Some(today));
    assert Banned(claimed);
    assert EarnFactor(claimed, localClicks) == 0.0;
    PayoutOfZeroFactor(BaseReward(IMin(StreakCapDays, NewStreak(u, today))));
  }

  /** A clean user (no ban, no suspicious events, no burst) is paid the full
      base reward: 1.00 on a first claim, 4.00 from the seventh day on. */
  lemma CleanClaimPaysBaseReward(u: User, today: int, localClicks: nat)
    requires !Banned(u) && SuspiciousEvents(u) <= 0 && localClicks < BurstClicks
    requires u.streak >= 0 && u.lastDailyClaim != Some(today)
    ensures var c := ClaimDaily(u, today, localClicks);
      c.Committed? && c.actual == BaseReward(IMin(StreakCapDays, c.streak))
    ensures u.lastDailyClaim.None? ==> ClaimDaily(u, today, localClicks).actual == 1.0
    ensures u.lastDailyClaim == Some(today - 1) && u.streak >= 6 ==>
      ClaimDaily(u, today, localClicks).actual == 4.0
  {
    var streak := NewStreak(u, today);
    var claimed := u.(streak := streak, lastDailyClaim := Some(today));
    CleanUserScore(claimed, localClicks, DefaultCooldownMs);
    assert EarnFactor(claimed, localClicks) == 1.0;
    var cap := IMin(StreakCapDays, streak);
    BaseRewardRange(cap, cap);
    assert BaseReward(cap) * 1.0 == BaseReward(cap);
  }

  /** Without a ban, and for a streak the two versions cap alike, the
      transactional claim computes the same claim as the in-place one. */
  lemma SafeMatchesInPlaceWhenNotBanned(u: User, today: int, localClicks: nat)
    requires !Banned(u) && NewStreak(u, today) != 0
    ensures ClaimDailySafe(Some(u), today, localClicks) == ClaimDaily(u, today, localClicks)
  {
    var claimed := u.(streak := NewStreak(u, today), lastDailyClaim := Some(today));
    assert EarnFactor(claimed, localClicks) == EarnFactor(u, localClicks);
  }

  /** The transactional claim as written pays a banned user the full base
      reward, where the in-place claim pays 0. */
  lemma SafeClaimPaysBannedUser(u: User, today: int, localClicks: nat)
    requires Banned(u) && u.lastDailyClaim != Some(today) && u.streak >= 0
    ensures var c := ClaimDailySafe(Some(u), today, localClicks);
      c.Committed? && c.actual == BaseReward(IMin(StreakCapDays, c.streak)) && c.actual >= 1.0
    ensures ClaimDaily(u, today, localClicks).actual == 0.0
  {
    var cap := IMin(StreakCapDays, NewStreak(u, today));
    BaseRewardRange(cap, cap);
    BannedClaimPaysNothing(u, today, localClicks);
  }

  /** The intended transactional claim pays a banned user nothing and
      otherwise agrees with the in-place claim. */
  lemma IntendedSafeClaimBannedGainsNothing(u: User, today: int, localClicks: nat)
    requires u.lastDailyClaim != Some(today) && NewStreak(u, today) != 0
    ensures IntendedClaimDailySafe(Some(u), today, localClicks) == ClaimDaily(u, today, localClicks)
    ensures Banned(u) ==> IntendedClaimDailySafe(Some(u), today, localClicks).actual == 0.0
  {
    var claimed := u.(streak := NewStreak(u, today), lastDailyClaim := Some(today));
    assert EarnFactor(claimed, localClicks) == EarnFactor(u, localClicks);
    if Banned(u) {
      BannedClaimPaysNothing(u, today, localClicks);
    }
  }

  // ---------- Loot boxes ----------

  /** The daily-click cost of a box, which is also the click count at which
      its button is enabled. */
  function Threshold(kind: BoxKind): int
  {
    match kind
    case Normal => NormalThreshold
    case Big => BigThreshold
  }

  /** The range of the random reward: 1..5 for a normal box, 5..44 for a big one. */
  predicate RewardInRange(kind: BoxKind, reward: int)
  {
    match kind
    case Normal => 1 <= reward <= 5
    case Big => 5 <= reward <= 44
  }

  datatype Buttons = Buttons(normalEnabled: bool, bigEnabled: bool)

  /** The enabled state of the two open buttons after `refresh`, for the
      signed-in user's record (`None` when nobody is signed in). */
  function Refresh(u: Option<User>): (b: Buttons)
    ensures b.bigEnabled ==> b.normalEnabled
    ensures u.None? ==> b == Buttons(false, false)
  {
    match u
    case None => Buttons(false, false)
    case Some(v) =>
      var clicks := v.dailyClicks;
      Buttons(!(clicks < NormalThreshold), !(clicks < BigThreshold))
  }

  function Enabled(b: Buttons, kind: BoxKind): bool
  {
    match kind
    case Normal => b.normalEnabled
    case Big => b.bigEnabled
  }

  /** A button is enabled exactly when the daily clicks reach its threshold. */
  lemma EnabledIffThreshold(u: User, kind: BoxKind)
    ensures Enabled(Refresh(Some(u)), kind) <==> u.dailyClicks >= Threshold(kind)
  {
  }

  /** The record after `openBox(kind)` with the drawn `reward`: the balance
      gains the scaled reward, the daily clicks drop by the box's cost
      (never below 0), and one box entry is appended. */
  function OpenedBox(u: User, kind: BoxKind, reward: int, id: string, createdAt: int, localClicks: nat): (v: User)
    requires RewardInRange(kind, reward)
    ensures v.balance == u.balance + Payout(reward as real, EarnFactor(u, localClicks))
    ensures u.balance <= v.balance <= u.balance + reward as real
    ensures u.dailyClicks >= Threshold(kind) ==> v.dailyClicks == u.dailyClicks - Threshold(kind)
    ensures u.dailyClicks < Threshold(kind) ==> v.dailyClicks == 0
    ensures |v.boxes| == |u.boxes| + 1 && v.boxes[..|u.boxes|] == u.boxes
    ensures v.boxes[|u.boxes|].kind == kind && v.boxes[|u.boxes|].id == id
    ensures v.boxes[|u.boxes|].reward == v.balance - u.balance
    ensures Banned(u) ==> v.balance == u.balance
    ensures v.(balance := u.balance, dailyClicks := u.dailyClicks, boxes := u.boxes) == u
  {
    var earnFactor := EarnFactor(u, localClicks);
    var actual := Payout(reward as real, earnFactor);
    BoxPayoutBounds(reward, earnFactor);
    var deduct := Threshold(kind);
    var dailyClicks := if u.dailyClicks - deduct >= 0 then u.dailyClicks - deduct else 0;
    u.(balance := u.balance + actual,
       dailyClicks := dailyClicks,
       boxes := u.boxes + [Box(id, kind, actual, createdAt)])
  }

  /** A box payout of an earn factor in [0, 1] lies between 0 and the
      drawn reward, and is 0 for a zero factor. */
  lemma BoxPayoutBounds(reward: int, earnFactor: real)
    requires 0 <= reward && 0.0 <= earnFactor <= 1.0
    ensures 0.0 <= Payout(reward as real, earnFactor) <= reward as real
    ensures earnFactor == 0.0 ==> Payout(reward as real, earnFactor) == 0.0
  {
    RoundCentsOfWhole(reward);
    ScaledPayoutBounds(reward as real, earnFactor);
    if earnFactor == 0.0 {
      PayoutOfZeroFactor(reward as real);
    }
  }

  /** A clean user (no ban, no suspicious events, no burst) is credited
      the whole drawn reward. */
  lemma CleanBoxPaysFullReward(u: User, kind: BoxKind, reward: int, id: string, createdAt: int, localClicks: nat)
    requires RewardInRange(kind, reward)
    requires !Banned(u) && SuspiciousEvents(u) <= 0 && localClicks < BurstClicks
    ensures OpenedBox(u, kind, reward, id, createdAt, localClicks).balance == u.balance + reward as real
  {
    CleanUserScore(u, localClicks, DefaultCooldownMs);
    assert EarnFactor(u, localClicks) == 1.0;
    assert reward as real * 1.0 == reward as real;
    RoundCentsOfWhole(reward);
  }

  /** Opening a box whose button is enabled costs exactly its threshold in
      daily clicks, so the floor at 0 only matters for a box opened without
      the button's check. */
  lemma OpenEnabledBoxCostsThreshold(u: User, kind: BoxKind, reward: int, id: string, createdAt: int, localClicks: nat)
    requires RewardInRange(kind, reward)
    requires Enabled(Refresh(Some(u)), kind)
    ensures OpenedBox(u, kind, reward, id, createdAt, localClicks).dailyClicks == u.dailyClicks - Threshold(kind)
  {
  }
}
